=== FILE: README.md ===
# GAUDI's (mu + lambda) driver, modelled in Dafny

This project models the generational driver of GAUDI, `ea_mu_plus_lambda`, and
the results writer it uses for checkpoints, `dump_population`
(gaudi/algorithms.py). The driver does the following:
- It evaluates the individuals of the initial population that have no valid fitness.
- It runs `ngen` generations: vary, evaluate the invalid offspring, update the hall of fame, select `mu` survivors from parents plus offspring, and log a record.
- It keeps a snapshot of the last fully evaluated population.
- It dumps the hall of fame every `check_every` generations.
- On an exception or a keyboard interrupt inside a generation's body it asks whether to keep the results so far.

The model is a set of pure functions over immutable values:

- `Individuals` has individuals with an optional fitness, and the driver's "evaluate the invalid ones" step. That step selects the invalid individuals, maps the evaluator over them and writes the results back with `zip`.
- `Logbook` has the per-generation record: generation, progress percentage, evaluations and compiled statistics. It also has the running total of evaluations.
- `Strings` has `str.lower` for the prompt, `'{}'.format(n)` for checkpoint names, and POSIX `os.path.join` / `os.path.basename`.
- `Manifests` has `dump_population` as a mapping. Its inputs are the individuals and the configuration. It computes the target directory, the manifest's file name, the objective descriptors, and the map from file name to fitness.
- `Algorithms` has the driver as a state machine: a generation stage by stage, the `else:` commit with its checkpoint test, the `except` branch, the loop and the whole call. Some things the program cannot decide: where an exception strikes, what the user answers, and whether a checkpoint write succeeds. These come from a `World` parameter. The operators come from a `Toolbox` parameter.
- `Reference` restates the run without the driver's state. It has the docstring's algorithm (`population = select(population + offspring, mu)`, iterated), the record and checkpoint each generation contributes, the first failing generation, and the run that should result.
- `Simulation` proves that the driver computes the reference run: `RunMatches`.
- `DriverProperties` derives the user-visible guarantees from `RunMatches`:
  - where a run stops;
  - the shape of the returned log;
  - the size and validity of the returned population;
  - the prompt's effect;
  - the checkpoint schedule;
  - that failed dumps are harmless.

Each failure is a `Stage` of the generation body: `Vary`, `Evaluate`, `HallOfFameUpdate`, `Select`, `Statistics` or `Report`. The driver raises one exception by itself. A generation that evaluates nobody has speed 0, so the ETA division at line 106 or 141 raises `ZeroDivisionError`. The model treats this as a failure in `Statistics` and does not take it from the oracle.

Two consequences of the statement order that are easy to miss:
- The `except` branch calls `unexpress` on the current `population` (lines 153-157). That is the new selection when the failure came after line 132, not the returned snapshot.
- A failure in the `verbose` report at line 147 comes after `logbook.record` at lines 144-145. So the returned log then also holds the failing generation's record.

## Model

| member | source | states |
|---|---|---|
| Individuals.InvalidSpec | gaudi/algorithms.py:91 | the list comprehension keeps only individuals whose fitness is invalid, and finds none in a fully evaluated population |
| Individuals.WriteBackAligned | gaudi/algorithms.py:91-94 | the `zip` write-back pairs the k-th result with the k-th invalid individual: position i ends up as that individual evaluated on its own |
| Individuals.EvaluateInvalid | gaudi/algorithms.py:91-94 | the evaluation step keeps one individual per input and gives position i that individual evaluated on its own: a valid one untouched, an invalid one given the evaluator's value for its genome |
| Individuals.EvaluateInvalidIsEach | gaudi/algorithms.py:91-94 | select, map the evaluator, then write back equals evaluating each individual in place |
| Individuals.EvaluateInvalidSpec | gaudi/algorithms.py:122-125 | after evaluation every individual is valid, genomes and already-valid individuals are untouched, and each invalid one gets the evaluator's value for its own genome |
| Individuals.CountInvalidCounts | gaudi/algorithms.py:100 | `nevals = len(invalid_ind)` is the number of positions whose fitness was invalid on entry |
| Individuals.InvalidConcat | gaudi/algorithms.py:122 | the invalid members of a concatenation are those of each part, in order |
| Individuals.EvaluateIdempotent | gaudi/algorithms.py:122-125 | evaluating an evaluated population changes nothing and finds nothing to evaluate |
| Logbook.Progress | gaudi/algorithms.py:143 | the logged percentage is 100·(gen+1)/(ngen+1), always positive |
| Logbook.Compile | gaudi/algorithms.py:99-142 | `stats.compile(population) if stats is not None else {}` at lines 99 and 142: without a statistics object the record's statistics are empty, otherwise they are what the statistics object compiles from the population it is given |
| Logbook.InitialProgress | gaudi/algorithms.py:107 | generation 0's `100/(ngen+1)` is the loop's formula at gen 0 |
| Logbook.ProgressMonotone | gaudi/algorithms.py:143 | progress rises strictly with the generation, stays in (0, 100], and reaches 100 at the last generation |
| Logbook.ProgressComplete | gaudi/algorithms.py:143 | the last generation logs exactly 100 percent |
| Logbook.SumEvalsAppend | gaudi/algorithms.py:139 | `performed_evals += nevals` adds one record's evaluations to the total of the log before it |
| Logbook.LogProgressIncreasing | gaudi/algorithms.py:107-108 | in a log indexed from generation 0, progress rises strictly along the log and a full log ends at 100 |
| Strings.Lower | gaudi/algorithms.py:151 | lower-casing keeps the length and maps each character on its own |
| Strings.Affirmative | gaudi/algorithms.py:151 | an answer that keeps the results has one or three characters and starts with 'y' or 'Y' |
| Strings.AffirmativeIff | gaudi/algorithms.py:150-152 | the answer keeps the results exactly when it is "y" or "yes" in any letter case and nothing else |
| Strings.NatToString | gaudi/algorithms.py:165 | `'{}'.format(gen)` is a non-empty string of decimal digits, starting with '0' only when it is "0" itself |
| Strings.NatToStringRoundTrip | gaudi/algorithms.py:165 | reading the decimal rendering back gives the number |
| Strings.NatToStringInjective | gaudi/algorithms.py:165 | distinct generations get distinct checkpoint sub-directory names |
| Strings.Join | gaudi/algorithms.py:177 | POSIX `os.path.join`: an absolute second part replaces the first; otherwise the parts are kept in order, joined by one '/' when the first is non-empty and does not end in '/', and simply concatenated when it is empty or does |
| Strings.Basename | gaudi/algorithms.py:183 | `os.path.basename` is the slash-free tail after the last '/' |
| Strings.BasenameOfSlashFree | gaudi/algorithms.py:183 | the basename of a directory prefix plus a slash-free name is that name |
| Strings.BasenameOfJoin | gaudi/algorithms.py:182-184 | joining a directory with a slash-free name and taking the basename gives the name back |
| Manifests.Descriptors | gaudi/algorithms.py:172 | one `name (module)` descriptor per configured objective, in order |
| Manifests.DescriptorRoundTrip | gaudi/algorithms.py:172 | the descriptor can be parsed back into its objective when the module name has no '(' |
| Manifests.TargetDirectory | gaudi/algorithms.py:174-177 | the output path when no sub-directory is given; with a relative sub-directory, a path that starts with the output path and ends with the sub-directory |
| Manifests.Results | gaudi/algorithms.py:181-183 | every basename written so far is a key, and the last one written holds its individual's values |
| Manifests.ResultsKeys | gaudi/algorithms.py:181-183 | the results map's keys are exactly the basenames written so far |
| Manifests.ResultsLastWins | gaudi/algorithms.py:181-183 | a key holds the values of the last individual filed under it |
| Manifests.ResultsSize | gaudi/algorithms.py:181-183 | the map has at most one entry per individual, and exactly one each when the basenames are distinct |
| Manifests.DumpPopulation | gaudi/algorithms.py:170-184 | the target is the output path, or the path joined with the sub-directory, which it tries to create; the manifest is `<name>.gaudi-output` inside it; the objective descriptors are in configuration order |
| Manifests.ManifestResults | gaudi/algorithms.py:181-183 | the manifest's results are keyed by the written files' basenames, with at most one entry per individual and the last writer winning |
| Manifests.ManifestName | gaudi/algorithms.py:184 | the manifest's own basename is `<name>.gaudi-output` whatever the directory |
| Algorithms.UpdateHallOfFame | gaudi/algorithms.py:96-97 | a given hall of fame becomes the result of updating its members with the new individuals, and an absent one stays absent |
| Algorithms.CheckpointDue | gaudi/algorithms.py:163 | a dump is due exactly when the hall of fame exists and is non-empty, the cadence is non-zero and the generation is a multiple of the cadence |
| Algorithms.CheckpointName | gaudi/algorithms.py:165 | the sub-directory is "check" followed by the decimal digits of the generation, without a leading zero |
| Algorithms.Failure | gaudi/algorithms.py:115-147 | a loop generation fails exactly when an exception strikes at a stage it reaches: any stage up to statistics, the ETA division when it evaluated nobody, or the report when `verbose` is set |
| Algorithms.InitialFailure | gaudi/algorithms.py:91-111 | the initial evaluation fails exactly when the evaluation, the hall-of-fame update, the statistics, the ETA division on zero evaluations or the verbose report raises |
| Algorithms.Commit | gaudi/algorithms.py:159-167 | a successful generation snapshots the population and appends a checkpoint attempt of the hall of fame exactly when one is due, leaving everything else alone |
| Algorithms.CheckpointManifest | gaudi/algorithms.py:163-165 | a checkpoint dumps into `check<gen>` under the output path, creating it, with the usual manifest name |
| Algorithms.Generation | gaudi/algorithms.py:115-147 | a generation advances exactly when its failure is absent, given how many offspring it evaluates |
| Algorithms.GenerationEffect | gaudi/algorithms.py:118-162 | an interrupted generation keeps the snapshot and the checkpoints; a successful one replaces population and snapshot by the selection from parents plus evaluated offspring, adds its evaluations and only appends checkpoints |
| Algorithms.GenerationLog | gaudi/algorithms.py:135-147 | a generation appends at most one record, exactly one when it succeeds, and that record carries its index and offspring evaluations |
| Algorithms.Interrupt | gaudi/algorithms.py:148-158 | a raising prompt lets the exception escape; an answer other than y/yes exits; a yes attempts `unexpress` on the current population and returns the snapshot and the log so far; the hall of fame is left as the failing generation left it |
| Algorithms.Loop | gaudi/algorithms.py:114-158 | a loop from `gen` stops at a generation in gen..ngen, or completes without unexpressing anyone |
| Algorithms.Turn | gaudi/algorithms.py:114-158 | one turn stops at the current generation or a later one, or completes |
| Algorithms.LoopLogGrows | gaudi/algorithms.py:114-158 | along the loop the log only grows, by at most one record per generation, and by exactly one per generation when nothing fails |
| Algorithms.LoopCheckpointsGrow | gaudi/algorithms.py:159-167 | checkpoint attempts are only ever appended |
| Algorithms.EaMuPlusLambda | gaudi/algorithms.py:85-111 | a failure before the loop escapes the call with nothing unexpressed or checkpointed; a run with no failure returns its results |
| Algorithms.RunLogBounds | gaudi/algorithms.py:100-114 | a returned log starts with generation 0's record counting the initial invalid individuals, and holds between 1 and ngen+1 records, all ngen+1 when nothing failed |
| Reference.ExpectedLog | gaudi/algorithms.py:108 | the reference log of n generations has n records |
| Reference.ExpectedLogAt | gaudi/algorithms.py:144-145 | the i-th reference record is generation i's record |
| Reference.LoggedEvalsAddUp | gaudi/algorithms.py:139 | `performed_evals += nevals`, started from generation 0's count: the evaluations in the reference log add up to the running total |
| Reference.FirstFailureBounds | gaudi/algorithms.py:114 | a failing generation found from k on lies in k..ngen |
| Reference.FirstFailureFails | gaudi/algorithms.py:115-148 | the generation found fails |
| Reference.FirstFailureNone | gaudi/algorithms.py:114-148 | nothing is found exactly when no generation from k on fails |
| Reference.FirstFailureEarliest | gaudi/algorithms.py:114-148 | no generation before the one found fails |
| Reference.FirstFailureIsFirst | gaudi/algorithms.py:114-158 | the search finds nothing exactly when no generation fails, and otherwise the earliest failing one |
| Reference.FirstFailureSkips | gaudi/algorithms.py:114 | a generation that does not fail passes the search on to the next |
| Reference.HallOfFameAtPresent | gaudi/algorithms.py:128-129 | a hall of fame stays present through every generation's update exactly when the caller gave one |
| Reference.ExpectedRunHallOfFame | gaudi/algorithms.py:128-158 | the reference run leaves the last generation's hall of fame when nothing failed; after a failure, the failing generation's own update when it came at selection or later, and the previous generation's otherwise |
| Reference.ExpectedRunShape | gaudi/algorithms.py:148-168 | the reference run stops where told, holds the checkpoints of the completed generations, and returns the population they produced |
| Simulation.GenerationEarly | gaudi/algorithms.py:118-132 | a failure before selection interrupts with the population and log unchanged |
| Simulation.GenerationStatistics | gaudi/algorithms.py:132-142 | a failure in the statistics block interrupts after selection replaced the population, with the log unchanged |
| Simulation.GenerationReport | gaudi/algorithms.py:144-147 | a report failure interrupts with the new record already logged |
| Simulation.GenerationSucceeds | gaudi/algorithms.py:118-167 | a generation without failure commits the selected population and its record |
| Simulation.CommitCheckpoints | gaudi/algorithms.py:128-165 | committing a generation brings the hall of fame and the checkpoint list to their reference values for that generation |
| Simulation.CommittedLog | gaudi/algorithms.py:132-145 | committing a generation brings the log, population and evaluation total to their reference values for that generation |
| Simulation.CommitReaches | gaudi/algorithms.py:115-162 | a committed generation leaves the driver in the reference state for the next one |
| Simulation.GenerationAdvances | gaudi/algorithms.py:115-162 | a generation without failure moves the driver from one reference state to the next |
| Simulation.InterruptedEarly | gaudi/algorithms.py:118-132 | a failure before selection leaves the previous population, snapshot, log and checkpoints for the `except` branch |
| Simulation.InterruptedInStatistics | gaudi/algorithms.py:132-142 | a statistics failure, or a generation that evaluated nobody, leaves the new selection but the old snapshot and log |
| Simulation.InterruptedInReport | gaudi/algorithms.py:144-147 | a report failure leaves the new selection and the log including its own record |
| Simulation.GenerationInterrupts | gaudi/algorithms.py:115-148 | a failing generation is interrupted and leaves what the reference run expects |
| Simulation.InterruptMatches | gaudi/algorithms.py:148-158 | the `except` branch, from that state, produces the reference run |
| Simulation.LoopStep | gaudi/algorithms.py:114-162 | the loop passes a generation without failure on to the next reference state |
| Simulation.LoopInterrupted | gaudi/algorithms.py:148-158 | the loop ends at a failing generation with the reference run |
| Simulation.LoopFinished | gaudi/algorithms.py:114 | a loop past the last generation returns the final reference population and the full log |
| Simulation.LoopRunsOut | gaudi/algorithms.py:114-162 | with no failure ahead the loop runs to its end |
| Simulation.LoopSkipsOut | gaudi/algorithms.py:114-162 | one step of that run |
| Simulation.LoopRunsInto | gaudi/algorithms.py:114-158 | with a first failure ahead the loop runs into it and returns the reference run for it |
| Simulation.LoopSkipsInto | gaudi/algorithms.py:114-158 | one step of that run |
| Simulation.LoopMatches | gaudi/algorithms.py:114-168 | from generation 1 the loop produces the reference run for the first failing generation |
| Simulation.RunStarts | gaudi/algorithms.py:85-111 | a generation-0 failure escapes, and otherwise the loop starts from the reference state of generation 1 |
| Simulation.RunMatches | gaudi/algorithms.py:47-168 | the whole call is the reference run for the first failing generation |
| DriverProperties.FailedAtIsFirstFailure | gaudi/algorithms.py:114-158 | the run ends at the earliest failing generation, and runs to the end exactly when none fails |
| DriverProperties.ExpectedLogShape | gaudi/algorithms.py:107-145 | the reference log is indexed from 0, its progress rises to 100, each record counts its generation's evaluations, and they add up to the total |
| DriverProperties.CompletedLogIsExpected | gaudi/algorithms.py:108-168 | a returned log is the reference log of its own length, with between 1 and ngen+1 records |
| DriverProperties.LogShape | gaudi/algorithms.py:108-168 | a returned log has that shape, and all ngen+1 records when nothing failed |
| DriverProperties.EvolveSize | gaudi/algorithms.py:132 | from a non-empty initial population, after any generation the population has mu members when selection returns as many as asked from a non-empty pool |
| DriverProperties.StartedNonEmpty | gaudi/algorithms.py:100-106 | when generation 0 succeeds, something was evaluated (otherwise the ETA division raises), so the initial population is non-empty |
| DriverProperties.PopulationSizeIsMu | gaudi/algorithms.py:132-168 | a returned population has mu members once generation 1 has completed |
| DriverProperties.EvolveValid | gaudi/algorithms.py:91-132 | every pool handed to selection and every population is fully evaluated, when selection picks from its pool |
| DriverProperties.ReturnedPopulationValid | gaudi/algorithms.py:160-168 | a returned population is fully evaluated |
| DriverProperties.CompletedPopulation | gaudi/algorithms.py:132-168 | for a selection that returns as many as asked and picks from its pool, a returned population is fully evaluated and has mu members once generation 1 has completed |
| DriverProperties.NoFailureCompletes | gaudi/algorithms.py:47-168 | with no exception and something to evaluate in every generation, the call returns the reference population after ngen generations and all ngen+1 records |
| DriverProperties.FailureInSecondGeneration | gaudi/algorithms.py:148-168 | an exception in generation 2 answered "yes" returns generation 1's population and two records |
| DriverProperties.LateFailureKeepsSnapshot | gaudi/algorithms.py:132-168 | after a failure past selection, the new selection is unexpressed while the previous snapshot is returned |
| DriverProperties.PromptDecides | gaudi/algorithms.py:150-152 | after a loop failure the run is cancelled exactly when the answer is not y/yes, and completes exactly when it is |
| DriverProperties.CheckpointsAreDue | gaudi/algorithms.py:163-165 | every checkpoint belongs to a generation in 1..k at which a dump was due, and holds that generation's hall of fame |
| DriverProperties.CheckpointsInOrder | gaudi/algorithms.py:163-165 | checkpoints come in strictly increasing generation order |
| DriverProperties.DueCheckpointsTaken | gaudi/algorithms.py:163-165 | every completed generation at which a dump was due has its checkpoint |
| DriverProperties.NoHallOfFameNoCheckpoints | gaudi/algorithms.py:96-97 | without a hall of fame nothing is ever checkpointed |
| DriverProperties.RunCheckpoints | gaudi/algorithms.py:159-167 | a run's checkpoints are those of the generations completed before the failing one, and none without a hall of fame |
| DriverProperties.RunHallOfFame | gaudi/algorithms.py:96-158 | the caller's hall of fame after the call has absorbed every completed generation, plus the failing generation's offspring when the failure came after the update at line 129; it exists exactly when one was given |
| DriverProperties.SelectFailureUpdatesHallOfFame | gaudi/algorithms.py:128-168 | a selection failure in generation 1 answered "y" returns the initial population while the hall of fame already holds generation 1's offspring |
| DriverProperties.FirstFailureIgnoresDumps | gaudi/algorithms.py:164-167 | which generation fails does not depend on whether dumps succeed |
| DriverProperties.ExpectedRunIgnoresDumps | gaudi/algorithms.py:164-167 | the reference outcome and hall of fame do not depend on whether dumps succeed |
| DriverProperties.DumpFailuresHarmless | gaudi/algorithms.py:164-167 | a failed dump is only logged: outcome, stopping generation, unexpressed individuals and hall of fame are the same whether dumps succeed or not |

## Left out

- Wall-clock time: `time()`, speed, `ev_speed`, `estimated_evals`, `remaining_evals` and the ETA are floats from the clock. They are not recorded. Only the division by a zero speed is kept, as a failure when nobody was evaluated.
- A zero time difference in `nevals / (t1-t0)`: it depends on the clock and is not modelled.
- Formatting: the `'{:.2f}%'` and `'{:.2f} ev/s'` renderings, the `eta` field and `logbook.header` are not modelled. Progress is the exact real value.
- Logging: `logger.log`, `logger.error` and `logger.warn` have no effect on the model. Only the raise point of the verbose report is kept.
- A keyboard interrupt during a checkpoint dump is not modelled. The `else:` block (lines 159-167) lies outside the `try`, and `except Exception` at line 166 does not catch `KeyboardInterrupt`, so such an interrupt escapes the call without the prompt. In the model a dump either succeeds or fails with an `Exception` that is only logged.
- `lambda_`, `cxpb` and `mutpb`, and the randomness of `varOr`: they are folded into the `vary` parameter, since the driver only passes them through.
- DEAP's `HallOfFame.update`, `toolbox.select` and `Statistics.compile`: their internals are parameters. Size and membership properties are assumed where needed: `HonoursK` (k individuals from any non-empty pool) and `SelectsFromPool`. Selection takes the generation number, so a random selection may pick differently in each generation.
- `toolbox.map` is not a parameter. It is assumed to return exactly one result per input, in input order (`Individuals.MapEvaluate`). A map returning fewer results would leave the trailing individuals invalid, because `zip` at lines 93 and 124 stops at the shorter list; that case is not modelled.
- `unexpress`: the model records the individuals on which it is attempted. Its effect on the molecule and its swallowed errors are not modelled, and neither is an interrupt during that loop.
- `sys.exit` and `raw_input`: they are the `Cancelled` outcome and the `answer` parameter. A raising prompt is `None`.
- `str.lower` is modelled for ASCII only. No non-ASCII character lower-cases to 'y', 'e' or 's', so the prompt test is unaffected.
- `cfg.output.check_every` is an integer, with 0 standing for any falsy value.
- `ngen` is a natural number. A negative `ngen` is not modelled: `ngen = -1` raises `ZeroDivisionError` at line 107, outside the `try`, and a smaller one runs no generation.
- `dump_population`: the file writes, `os.mkdir` (its failure is ignored in the source), the YAML serialisation and the version and timestamp header (lines 185-188) are not modelled. `individual.write` is a parameter returning the written file name.
- RunHallOfFame, ExpectedRunHallOfFame and HallOfFameLeft take a raise inside `halloffame.update` (lines 97 and 129) to leave the hall of fame as it was before the call. DEAP's `HallOfFame.update` inserts the new individuals one by one, so an exception or a keyboard interrupt part-way through can leave it partly updated; the model does not represent that intermediate state.
- `map(float, ...)`: fitness values are already reals.
- Fitness validity: the model takes every evaluation result to be non-empty and of the objectives' length, and marks an individual valid as soon as a result is written back. DEAP's `Fitness` keeps an individual with an empty result invalid, and raises when the result's length differs from its weights. So `EvaluateInvalidSpec`, `EvaluateIdempotent`, `EvolveValid`, `ReturnedPopulationValid` and `CompletedPopulation` state validity under that assumption.
- Statistics records are `map<string, real>`.
- gaudi/genes/search.py, gaudi/objectives/distance.py and gaudi/objectives/__init__.py are not part of this model. They are the genes and objectives the driver manipulates only through the toolbox.

=== FILE: algorithms.dfy ===
/** The (mu + lambda) generational driver `ea_mu_plus_lambda`
    (gaudi/algorithms.py lines 47-168) as a state machine over immutable values.

    The evolution operators, the hall of fame's update rule, the statistics object
    and each individual's `write` are parameters (a `Toolbox`). Exceptions are
    driven by an oracle (a `World`) that says at which stage of which generation
    one is raised; the prompt's answer and the success of each checkpoint write are
    part of the same world. The one exception the driver raises by itself, the
    ETA's division by a zero speed when a generation evaluates nobody, is part of
    the model rather than of the oracle. */
module Algorithms {
  import opened Wrappers
  import opened Strings
  import opened Individuals
  import opened Logbook
  import opened Manifests

  /** The points of a generation body at which an exception can surface, in the
      order the body reaches them: `varOr` (118), the evaluation map (122-125), the
      hall-of-fame update (129), selection (132), the statistics block including the
      ETA division (135-143), and the report after the record is logged (147). */
  datatype Stage = Vary | Evaluate | HallOfFameUpdate | Select | Statistics | Report

  /** The collaborators the driver calls. `vary(population, gen)` is `varOr` at
      generation `gen` (its randomness, lambda, cxpb and mutpb are folded in);
      `select(xs, k, gen)` is `toolbox.select` at generation `gen` (a random
      selection such as a tournament may pick differently each generation); `updateHallOfFame(members, xs)` is
      `HallOfFame.update`; `write` is each individual's own `write`. */
  datatype Toolbox<!G> = Toolbox(
    vary: (seq<Individual<G>>, nat) -> seq<Individual<G>>,
    evaluate: G -> seq<real>,
    select: (seq<Individual<G>>, nat, nat) -> seq<Individual<G>>,
    updateHallOfFame: (seq<Individual<G>>, seq<Individual<G>>) -> seq<Individual<G>>,
    write: Writer<G>)

  /** The driver's remaining arguments: `mu`, `ngen`, `cfg`, `stats` and `verbose`. */
  datatype Params<!G> = Params(
    mu: nat,
    ngen: nat,
    cfg: Config,
    stats: Option<seq<Individual<G>> -> map<string, real>>,
    verbose: bool)

  /** What the program cannot decide: where an exception (or a keyboard interrupt)
      strikes in generation `gen` (0 is the initial evaluation), what the user types
      at the prompt (`None` when `raw_input` itself raises), and whether the
      checkpoint dump of generation `gen` goes through. */
  datatype World = World(
    failAt: nat -> Option<Stage>,
    answer: Option<string>,
    dumpSucceeds: nat -> bool)

  /** A checkpoint attempt after generation `gen`: the hall-of-fame members it
      dumps and whether the dump went through (a failed one is only logged). The
      manifest it writes is `CheckpointManifest`. */
  datatype Checkpoint<G> = Checkpoint(gen: nat, members: seq<Individual<G>>, written: bool)

  /** The driver's variables between statements: `population` (replaced in place by
      selection), `population_` (the last fully evaluated snapshot), the logbook,
      `performed_evals`, the hall of fame's members (`None` when no hall of fame was
      given), and the checkpoints attempted so far. */
  datatype State<G> = State(
    population: seq<Individual<G>>,
    snapshot: seq<Individual<G>>,
    log: seq<Record>,
    performed: nat,
    hallOfFame: Option<seq<Individual<G>>>,
    checkpoints: seq<Checkpoint<G>>)

  /** How a call ends: it returns `(population_, logbook)`, it ends through
      `sys.exit` after a "no" at the prompt, or an exception escapes it (one raised
      before the loop, or by the prompt itself). */
  datatype Outcome<G> = Completed(population: seq<Individual<G>>, log: seq<Record>) | Cancelled | Raised

  /** The outcome together with what the call did on the way: the generation whose
      failure ended it (if any), the individuals on which `unexpress` was attempted,
      the checkpoint attempts, and the members of the caller's hall of fame, which
      the driver updates in place (`None` when no hall of fame was given). */
  datatype Run<G> = Run(
    outcome: Outcome<G>,
    failedAt: Option<nat>,
    unexpressed: seq<Individual<G>>,
    checkpoints: seq<Checkpoint<G>>,
    hallOfFame: Option<seq<Individual<G>>>)

  datatype Step<G> = Advanced(state: State<G>) | Interrupted(state: State<G>)

  /** `if halloffame is not None: halloffame.update(xs)` */
  function UpdateHallOfFame<G>(tb: Toolbox<G>, hof: Option<seq<Individual<G>>>, xs: seq<Individual<G>>): (r: Option<seq<Individual<G>>>)
    ensures r.Some? <==> hof.Some?
    ensures hof.Some? ==> r.value == tb.updateHallOfFame(hof.value, xs)
  {
    match hof
    case None => None
    case Some(members) => Some(tb.updateHallOfFame(members, xs))
  }

  /** `halloffame and cfg.output.check_every and not gen % cfg.output.check_every`:
      a hall of fame is truthy when it exists and is non-empty, the cadence when it
      is non-zero; `gen % every` is zero exactly when `every` divides `gen`, under
      Python's floored and Dafny's Euclidean remainder alike. */
  predicate CheckpointDue<G>(hof: Option<seq<Individual<G>>>, every: int, gen: nat): (due: bool)
    ensures due <==> hof.Some? && hof.value != [] && every != 0 && (gen / every) * every == gen
  {
    hof.Some? && |hof.value| > 0 && every != 0 && gen % every == 0
  }

  /** `'check{}'.format(gen)` */
  function CheckpointName(gen: nat): (r: string)
    ensures |r| > 5 && r[..5] == "check"
    ensures forall i :: 5 <= i < |r| ==> IsDigit(r[i])
    ensures DigitsValue(r[5..]) == gen
    ensures r[5] == '0' ==> gen == 0 && |r| == 6
  {
    NatToStringRoundTrip(gen);
    assert ("check" + NatToString(gen))[5..] == NatToString(gen);
    "check" + NatToString(gen)
  }

  /** The failure that actually ends generation `gen >= 1`, given the oracle's stage
      and the number of offspring evaluated: any stage up to the statistics block
      fails as the oracle says; otherwise a generation that evaluated nobody fails in
      the ETA division; the report stage only exists when `verbose` is set. */
  function Failure(f: Option<Stage>, nevals: nat, verbose: bool): (r: Option<Stage>)
    ensures r.None? <==> (f.None? || (f == Some(Report) && !verbose)) && nevals > 0
    ensures r.Some? && f.Some? && f.value != Report ==> r == f
  {
    if f.Some? && f.value != Report then f
    else if nevals == 0 then Some(Statistics)
    else if f == Some(Report) && verbose then f
    else None
  }

  /** The same for the evaluation of the initial population, which has no variation
      and no selection stage. */
  function InitialFailure(f: Option<Stage>, nevals: nat, verbose: bool): (r: Option<Stage>)
    ensures r.None? <==> (f.None? || f.value.Vary? || f.value.Select? || (f.value.Report? && !verbose)) && nevals > 0
  {
    if f.Some? && (f.value.Evaluate? || f.value.HallOfFameUpdate? || f.value.Statistics?) then f
    else if nevals == 0 then Some(Statistics)
    else if f == Some(Report) && verbose then f
    else None
  }

  /** The `else:` branch of a generation that raised nothing: snapshot the
      population, then attempt a checkpoint of the hall of fame when one is due. */
  function Commit<G>(tb: Toolbox<G>, p: Params<G>, w: World, s: State<G>, gen: nat): (r: State<G>)
    ensures r.snapshot == s.population && r.population == s.population
    ensures r.log == s.log && r.performed == s.performed && r.hallOfFame == s.hallOfFame
    ensures CheckpointDue(s.hallOfFame, p.cfg.output.checkEvery, gen) ==>
      r.checkpoints == s.checkpoints + [Checkpoint(gen, s.hallOfFame.value, w.dumpSucceeds(gen))]
    ensures !CheckpointDue(s.hallOfFame, p.cfg.output.checkEvery, gen) ==> r.checkpoints == s.checkpoints
  {
    var s' := s.(snapshot := s.population);
    if CheckpointDue(s'.hallOfFame, p.cfg.output.checkEvery, gen) then
      s'.(checkpoints := s'.checkpoints + [Checkpoint(gen, s'.hallOfFame.value, w.dumpSucceeds(gen))])
    else s'
  }

  /** `dump_population(halloffame, cfg, subdir='check{}'.format(gen))`: the
      checkpoint's manifest lives in the sub-directory `check<gen>` of the output
      path, which the dump tries to create. */
  function CheckpointManifest<G>(c: Checkpoint<G>, cfg: Config, write: Writer<G>): (m: Manifest)
    ensures m.directory == Join(cfg.output.path, CheckpointName(c.gen)) && m.createsDirectory
    ensures m.file == Join(m.directory, cfg.output.name + ManifestSuffix)
  {
    DumpPopulation(c.members, cfg, Some(CheckpointName(c.gen)), write)
  }

  /** One pass of the `try` body for generation `gen`, stage by stage; a failing
      stage leaves the state as it stands at that point. */
  function Generation<G>(tb: Toolbox<G>, p: Params<G>, w: World, s: State<G>, gen: nat): (r: Step<G>)
    ensures r.Advanced? <==> Failure(w.failAt(gen), CountInvalid(tb.vary(s.population, gen)), p.verbose).None?
  {
    var fail := w.failAt(gen);
    if fail == Some(Vary) || fail == Some(Evaluate) then Interrupted(s)
    else
      var varied := tb.vary(s.population, gen);
      var offspring := EvaluateInvalid(varied, tb.evaluate);
      if fail == Some(HallOfFameUpdate) then Interrupted(s)
      else
        var s1 := s.(hallOfFame := UpdateHallOfFame(tb, s.hallOfFame, offspring));
        if fail == Some(Select) then Interrupted(s1)
        else
          var s2 := s1.(population := tb.select(s.population + offspring, p.mu, gen));
          var nevals := CountInvalid(varied);
          if fail == Some(Statistics) || nevals == 0 then Interrupted(s2)
          else
            var record := Record(gen, Progress(gen, p.ngen), nevals, Compile(p.stats, s2.population));
            var s3 := s2.(performed := s.performed + nevals, log := s.log + [record]);
            if fail == Some(Report) && p.verbose then Interrupted(s3)
            else Advanced(Commit(tb, p, w, s3, gen))
  }

  /** An interrupted generation keeps the last snapshot and the checkpoints made so
      far; a successful one replaces population and snapshot by the selection from
      parents and evaluated offspring and adds its evaluations to `performed_evals`. */
  lemma GenerationEffect<G>(tb: Toolbox<G>, p: Params<G>, w: World, s: State<G>, gen: nat)
    ensures var r := Generation(tb, p, w, s, gen);
      r.Interrupted? ==> r.state.snapshot == s.snapshot && r.state.checkpoints == s.checkpoints
    ensures var r := Generation(tb, p, w, s, gen);
      r.Advanced? ==>
      var next := tb.select(s.population + EvaluateInvalid(tb.vary(s.population, gen), tb.evaluate), p.mu, gen);
      && r.state.population == next && r.state.snapshot == next
      && r.state.performed == s.performed + CountInvalid(tb.vary(s.population, gen))
      && |s.checkpoints| <= |r.state.checkpoints| && r.state.checkpoints[..|s.checkpoints|] == s.checkpoints
  {
    var r := Generation(tb, p, w, s, gen);
    if r.Advanced? {
      assert r.state.checkpoints[..|s.checkpoints|] == s.checkpoints;
    }
  }

  /** A generation appends at most one record to the log, for itself and counting
      its offspring's evaluations; a successful one appends exactly one. */
  lemma GenerationLog<G>(tb: Toolbox<G>, p: Params<G>, w: World, s: State<G>, gen: nat)
    ensures var r := Generation(tb, p, w, s, gen);
      && |s.log| <= |r.state.log| <= |s.log| + 1 && r.state.log[..|s.log|] == s.log
      && (r.Advanced? ==> |r.state.log| == |s.log| + 1)
      && (|r.state.log| > |s.log| ==>
            r.state.log[|s.log|].gen == gen && r.state.log[|s.log|].nevals == CountInvalid(tb.vary(s.population, gen)))
  {
    var r := Generation(tb, p, w, s, gen);
    assert r.state.log[..|s.log|] == s.log;
  }

  /** The `except` branch: ask; on anything but "y"/"yes" leave through `sys.exit`;
      on a yes attempt `unexpress` on every member of the current `population`
      (errors swallowed) and return the last snapshot with the log so far. */
  function Interrupt<G>(w: World, s: State<G>, gen: nat): (r: Run<G>)
    ensures r.failedAt == Some(gen) && r.checkpoints == s.checkpoints && r.hallOfFame == s.hallOfFame
    ensures r.outcome.Cancelled? <==> w.answer.Some? && !Affirmative(w.answer.value)
    ensures r.outcome.Raised? <==> w.answer.None?
    ensures r.outcome.Completed? ==> r.outcome.population == s.snapshot && r.outcome.log == s.log && r.unexpressed == s.population
    ensures !r.outcome.Completed? ==> r.unexpressed == []
  {
    match w.answer
    case None => Run(Raised, Some(gen), [], s.checkpoints, s.hallOfFame)
    case Some(a) =>
      if !Affirmative(a) then Run(Cancelled, Some(gen), [], s.checkpoints, s.hallOfFame)
      else Run(Completed(s.snapshot, s.log), Some(gen), s.population, s.checkpoints, s.hallOfFame)
  }

  /** `for gen in xrange(gen, ngen + 1)`, with its `break` on interruption. */
  function Loop<G>(tb: Toolbox<G>, p: Params<G>, w: World, s: State<G>, gen: nat): (r: Run<G>)
    requires 1 <= gen <= p.ngen + 1
    ensures r.failedAt.Some? ==> gen <= r.failedAt.value <= p.ngen
    ensures r.failedAt.None? ==> r.outcome.Completed? && r.unexpressed == []
    decreases p.ngen + 1 - gen, 1
  {
    if gen == p.ngen + 1 then Run(Completed(s.snapshot, s.log), None, [], s.checkpoints, s.hallOfFame)
    else Turn(tb, p, w, s, gen)
  }

  /** One turn of the loop: generation `gen`, then on to the next one or to the
      prompt. */
  function Turn<G>(tb: Toolbox<G>, p: Params<G>, w: World, s: State<G>, gen: nat): (r: Run<G>)
    requires 1 <= gen <= p.ngen
    ensures r.failedAt.Some? ==> gen <= r.failedAt.value <= p.ngen
    ensures r.failedAt.None? ==> r.outcome.Completed? && r.unexpressed == []
    decreases p.ngen + 1 - gen, 0
  {
    match Generation(tb, p, w, s, gen)
    case Advanced(next) => Loop(tb, p, w, next, gen + 1)
    case Interrupted(cur) => Interrupt(w, cur, gen)
  }

  /** The log only grows along the loop, by at most one record per generation, and
      by exactly one per generation when nothing failed. */
  lemma {:induction false} LoopLogGrows<G>(tb: Toolbox<G>, p: Params<G>, w: World, s: State<G>, gen: nat)
    requires 1 <= gen <= p.ngen + 1
    ensures var r := Loop(tb, p, w, s, gen);
      r.failedAt.None? ==> |r.outcome.log| == |s.log| + p.ngen + 1 - gen
    ensures var r := Loop(tb, p, w, s, gen);
      r.outcome.Completed? ==>
      && |s.log| <= |r.outcome.log| <= |s.log| + p.ngen + 1 - gen
      && r.outcome.log[..|s.log|] == s.log
    decreases p.ngen + 1 - gen
  {
    if gen <= p.ngen {
      GenerationLog(tb, p, w, s, gen);
      var step := Generation(tb, p, w, s, gen);
      if step.Advanced? {
        var next := step.state;
        LoopLogGrows(tb, p, w, next, gen + 1);
        var r := Loop(tb, p, w, next, gen + 1);
        assert Loop(tb, p, w, s, gen) == r;
        if r.outcome.Completed? {
          assert r.outcome.log[..|s.log|] == r.outcome.log[..|next.log|][..|s.log|];
        }
      }
    }
  }

  /** Checkpoint attempts are never undone: the loop only appends to the list. */
  lemma {:induction false} LoopCheckpointsGrow<G>(tb: Toolbox<G>, p: Params<G>, w: World, s: State<G>, gen: nat)
    requires 1 <= gen <= p.ngen + 1
    ensures var r := Loop(tb, p, w, s, gen);
      |s.checkpoints| <= |r.checkpoints| && r.checkpoints[..|s.checkpoints|] == s.checkpoints
    decreases p.ngen + 1 - gen
  {
    if gen <= p.ngen {
      GenerationEffect(tb, p, w, s, gen);
      var step := Generation(tb, p, w, s, gen);
      if step.Advanced? {
        var next := step.state;
        LoopCheckpointsGrow(tb, p, w, next, gen + 1);
        var r := Loop(tb, p, w, next, gen + 1);
        assert Loop(tb, p, w, s, gen) == r;
        assert r.checkpoints[..|s.checkpoints|] == r.checkpoints[..|next.checkpoints|][..|s.checkpoints|];
      }
    }
  }

  /** `ea_mu_plus_lambda(population, toolbox, mu, lambda_, cxpb, mutpb, ngen, cfg,
      stats, halloffame, verbose)`. Everything before the loop runs outside the
      `try`, so a failure there (including the ETA's division when the initial
      population needed no evaluation) escapes the call. */
  function EaMuPlusLambda<G>(tb: Toolbox<G>, p: Params<G>, w: World, population: seq<Individual<G>>, hallOfFame: Option<seq<Individual<G>>>): (r: Run<G>)
    ensures r.failedAt == Some(0) ==> r.outcome.Raised? && r.unexpressed == [] && r.checkpoints == []
    ensures r.failedAt.None? ==> r.outcome.Completed?
  {
    var f := w.failAt(0);
    if f == Some(Evaluate) then Run(Raised, Some(0), [], [], hallOfFame)
    else
      var pop := EvaluateInvalid(population, tb.evaluate);
      if f == Some(HallOfFameUpdate) then Run(Raised, Some(0), [], [], hallOfFame)
      else
        var hof := UpdateHallOfFame(tb, hallOfFame, pop);
        var nevals := CountInvalid(population);
        if f == Some(Statistics) || nevals == 0 then Run(Raised, Some(0), [], [], hof)
        else
          var log := [Record(0, 100.0 / (p.ngen + 1) as real, nevals, Compile(p.stats, pop))];
          if f == Some(Report) && p.verbose then Run(Raised, Some(0), [], [], hof)
          else Loop(tb, p, w, State(pop, pop, log, nevals, hof, []), 1)
  }

  /** A returned log starts with generation 0's record, counting the initial
      population's invalid members, and holds at most one record per generation,
      exactly one when nothing failed. */
  lemma RunLogBounds<G>(tb: Toolbox<G>, p: Params<G>, w: World, population: seq<Individual<G>>, hallOfFame: Option<seq<Individual<G>>>)
    ensures var r := EaMuPlusLambda(tb, p, w, population, hallOfFame);
      r.outcome.Completed? ==>
      && 1 <= |r.outcome.log| <= p.ngen + 1 && r.outcome.log[0].gen == 0
      && r.outcome.log[0].nevals == CountInvalid(population)
    ensures var r := EaMuPlusLambda(tb, p, w, population, hallOfFame);
      r.failedAt.None? ==> |r.outcome.log| == p.ngen + 1
  {
    var r := EaMuPlusLambda(tb, p, w, population, hallOfFame);
    if r.failedAt != Some(0) {
      var pop := EvaluateInvalid(population, tb.evaluate);
      var log := [Record(0, 100.0 / (p.ngen + 1) as real, CountInvalid(population), Compile(p.stats, pop))];
      var s := State(pop, pop, log, CountInvalid(population), UpdateHallOfFame(tb, hallOfFame, pop), []);
      assert r == Loop(tb, p, w, s, 1);
      LoopLogGrows(tb, p, w, s, 1);
      if r.outcome.Completed? {
        assert r.outcome.log[0] == r.outcome.log[..1][0];
      }
    }
  }
}

=== FILE: individuals.dfy ===
/** Individuals as the driver sees them: an opaque genome plus a fitness that is
    either valid (a tuple of objective values) or invalid (not yet computed for the
    current genome), and the driver's "evaluate the invalid ones" step
    (gaudi/algorithms.py lines 91-94 and 122-125). */
module Individuals {
  import opened Wrappers

  datatype Individual<G> = Individual(genome: G, fitness: Option<seq<real>>) {

    /** `ind.fitness.valid` */
    predicate Valid() {
      fitness.Some?
    }

    /** `ind.fitness.values`; an invalid fitness has the empty tuple. */
    function Values(): seq<real> {
      fitness.GetOr([])
    }
  }

  ghost predicate AllValid<G>(xs: seq<Individual<G>>) {
    forall i :: 0 <= i < |xs| ==> xs[i].Valid()
  }

  /** `[ind for ind in xs if not ind.fitness.valid]` */
  function Invalid<G>(xs: seq<Individual<G>>): (r: seq<Individual<G>>)
    ensures |r| <= |xs|
  {
    if xs == [] then []
    else (if xs[0].Valid() then [] else [xs[0]]) + Invalid(xs[1..])
  }

  /** The selected individuals are all invalid, and a population with no invalid
      member yields none. */
  lemma {:induction false} InvalidSpec<G>(xs: seq<Individual<G>>)
    ensures forall i :: 0 <= i < |Invalid(xs)| ==> !Invalid(xs)[i].Valid()
    ensures AllValid(xs) ==> Invalid(xs) == []
    decreases |xs|
  {
    if xs != [] {
      InvalidSpec(xs[1..]);
      var head: seq<Individual<G>> := if xs[0].Valid() then [] else [xs[0]];
      forall i | 0 <= i < |Invalid(xs)|
        ensures !Invalid(xs)[i].Valid()
      {
        if i >= |head| {
          assert Invalid(xs)[i] == Invalid(xs[1..])[i - |head|];
        }
      }
    }
  }

  /** Number of individuals the evaluation step submits: `nevals`. */
  function CountInvalid<G>(xs: seq<Individual<G>>): nat {
    |Invalid(xs)|
  }

  /** `toolbox.map(toolbox.evaluate, invalid_ind)`, one result per submitted individual. */
  function MapEvaluate<G>(evaluate: G -> seq<real>, ys: seq<Individual<G>>): (r: seq<seq<real>>)
    ensures |r| == |ys|
  {
    if ys == [] then [] else [evaluate(ys[0].genome)] + MapEvaluate(evaluate, ys[1..])
  }

  /** The `zip` write-back loop: the k-th result goes to the k-th invalid individual,
      valid individuals keep their fitness. */
  function WriteBack<G>(xs: seq<Individual<G>>, fits: seq<seq<real>>): (r: seq<Individual<G>>)
    requires |fits| == |Invalid(xs)|
    ensures |r| == |xs|
  {
    if xs == [] then []
    else if xs[0].Valid() then [xs[0]] + WriteBack(xs[1..], fits)
    else [xs[0].(fitness := Some(fits[0]))] + WriteBack(xs[1..], fits[1..])
  }

  /** What evaluation does to one individual, position by position. */
  function Evaluated<G>(x: Individual<G>, evaluate: G -> seq<real>): Individual<G> {
    if x.Valid() then x else x.(fitness := Some(evaluate(x.genome)))
  }

  lemma {:induction false} WriteBackAligned<G>(xs: seq<Individual<G>>, evaluate: G -> seq<real>)
    ensures forall i :: 0 <= i < |xs| ==>
      WriteBack(xs, MapEvaluate(evaluate, Invalid(xs)))[i] == Evaluated(xs[i], evaluate)
    decreases |xs|
  {
    if xs != [] {
      var fits := MapEvaluate(evaluate, Invalid(xs));
      WriteBackAligned(xs[1..], evaluate);
      if !xs[0].Valid() {
        var ys := Invalid(xs);
        assert ys == [xs[0]] + Invalid(xs[1..]);
        assert ys[1..] == Invalid(xs[1..]);
        assert fits[0] == evaluate(xs[0].genome);
        assert fits[1..] == MapEvaluate(evaluate, Invalid(xs[1..]));
      } else {
        var tail := Invalid(xs[1..]);
        assert Invalid(xs) == [] + tail;
        assert [] + tail == tail;
        assert fits == MapEvaluate(evaluate, Invalid(xs[1..]));
      }
      var r := WriteBack(xs, fits);
      forall i | 0 <= i < |xs|
        ensures r[i] == Evaluated(xs[i], evaluate)
      {
        if i > 0 {
          assert r[i] == WriteBack(xs[1..], MapEvaluate(evaluate, Invalid(xs[1..])))[i - 1];
        }
      }
    }
  }

  /** The evaluation step as the source performs it: select the invalid individuals,
      map the evaluator over them, and write each result back to the individual it
      was computed for. */
  function EvaluateInvalid<G>(xs: seq<Individual<G>>, evaluate: G -> seq<real>): (r: seq<Individual<G>>)
    ensures |r| == |xs|
    ensures forall i :: 0 <= i < |xs| ==> r[i] == Evaluated(xs[i], evaluate)
  {
    WriteBackAligned(xs, evaluate);
    WriteBack(xs, MapEvaluate(evaluate, Invalid(xs)))
  }

  /** Each individual evaluated on its own: the reference the evaluation step is
      compared with. */
  function EvaluateEach<G>(xs: seq<Individual<G>>, evaluate: G -> seq<real>): (r: seq<Individual<G>>)
    ensures |r| == |xs|
  {
    if xs == [] then [] else [Evaluated(xs[0], evaluate)] + EvaluateEach(xs[1..], evaluate)
  }

  lemma {:induction false} EvaluateEachAt<G>(xs: seq<Individual<G>>, evaluate: G -> seq<real>)
    ensures forall i :: 0 <= i < |xs| ==> EvaluateEach(xs, evaluate)[i] == Evaluated(xs[i], evaluate)
    decreases |xs|
  {
    if xs != [] {
      EvaluateEachAt(xs[1..], evaluate);
      forall i | 0 < i < |xs|
        ensures EvaluateEach(xs, evaluate)[i] == Evaluated(xs[i], evaluate)
      {
        assert EvaluateEach(xs, evaluate)[i] == EvaluateEach(xs[1..], evaluate)[i - 1];
      }
    }
  }

  /** Selecting the invalid individuals, evaluating them and writing the results
      back evaluates every invalid individual in place. */
  lemma EvaluateInvalidIsEach<G>(xs: seq<Individual<G>>, evaluate: G -> seq<real>)
    ensures EvaluateInvalid(xs, evaluate) == EvaluateEach(xs, evaluate)
  {
    WriteBackAligned(xs, evaluate);
    EvaluateEachAt(xs, evaluate);
  }

  /** What the evaluation step amounts to: every individual ends valid, genomes and
      already-valid fitnesses are untouched, and each previously invalid one
      receives the evaluator's value for its own genome. */
  lemma EvaluateInvalidSpec<G>(xs: seq<Individual<G>>, evaluate: G -> seq<real>)
    ensures var r := EvaluateInvalid(xs, evaluate);
      && AllValid(r)
      && (forall i :: 0 <= i < |xs| ==> r[i].genome == xs[i].genome)
      && (forall i :: 0 <= i < |xs| && xs[i].Valid() ==> r[i] == xs[i])
      && (forall i :: 0 <= i < |xs| && !xs[i].Valid() ==> r[i].fitness == Some(evaluate(xs[i].genome)))
  {
    WriteBackAligned(xs, evaluate);
  }

  lemma {:induction false} InvalidConcat<G>(a: seq<Individual<G>>, b: seq<Individual<G>>)
    ensures Invalid(a + b) == Invalid(a) + Invalid(b)
    decreases |a|
  {
    if a != [] {
      assert (a + b)[1..] == a[1..] + b;
      InvalidConcat(a[1..], b);
    } else {
      assert a + b == b;
    }
  }

  /** `nevals` counts exactly the positions whose fitness was invalid on entry. */
  lemma {:induction false} CountInvalidCounts<G>(xs: seq<Individual<G>>)
    ensures CountInvalid(xs) == |set i | 0 <= i < |xs| && !xs[i].Valid()|
    decreases |xs|
  {
    if xs != [] {
      var n := |xs| - 1;
      var init := xs[..n];
      CountInvalidCounts(init);
      assert xs == init + [xs[n]];
      InvalidConcat(init, [xs[n]]);
      assert Invalid([xs[n]]) == (if xs[n].Valid() then [] else [xs[n]]) by {
        assert [xs[n]][1..] == [];
      }
      var before := set i | 0 <= i < |init| && !init[i].Valid();
      var all := set i | 0 <= i < |xs| && !xs[i].Valid();
      if xs[n].Valid() {
        assert all == before;
      } else {
        assert all == before + {n};
      }
    }
  }

  /** Evaluating twice is evaluating once: a second pass finds nothing to evaluate. */
  lemma EvaluateIdempotent<G>(xs: seq<Individual<G>>, evaluate: G -> seq<real>)
    ensures EvaluateInvalid(EvaluateInvalid(xs, evaluate), evaluate) == EvaluateInvalid(xs, evaluate)
    ensures CountInvalid(EvaluateInvalid(xs, evaluate)) == 0
  {
    EvaluateInvalidSpec(xs, evaluate);
    var r := EvaluateInvalid(xs, evaluate);
    EvaluateInvalidSpec(r, evaluate);
    InvalidSpec(r);
  }
}

=== FILE: logbook.dfy ===
/** The logbook the driver fills: one record per generation with its index, the
    progress percentage and the number of evaluations, plus whatever the optional
    statistics object compiles over the population (gaudi/algorithms.py lines
    99-109 and 134-145). Speed and ETA are wall-clock floats and are not recorded. */
module Logbook {
  import opened Wrappers
  import opened Individuals

  datatype Record = Record(gen: nat, progress: real, nevals: nat, stats: map<string, real>)

  /** Progress after generation `gen` of `ngen`, in percent: `100*(gen+1)/(ngen+1)`
      with true division (the `'{:.2f}%'` rendering is not modelled). */
  function Progress(gen: nat, ngen: nat): (pct: real)
    ensures pct > 0.0
    ensures pct * (ngen + 1) as real == 100.0 * (gen + 1) as real
  {
    100.0 * (gen + 1) as real / (ngen + 1) as real
  }

  /** `stats.compile(population) if stats is not None else {}` */
  function Compile<G>(stats: Option<seq<Individual<G>> -> map<string, real>>, pop: seq<Individual<G>>): (r: map<string, real>)
    ensures stats.None? ==> r == map[]
    ensures stats.Some? ==> r == stats.value(pop)
  {
    match stats
    case None => map[]
    case Some(compile) => compile(pop)
  }

  /** Generation 0 logs `100/(ngen+1)`, a different expression from the loop's; it
      is the same value the loop's formula gives for gen 0. */
  lemma InitialProgress(ngen: nat)
    ensures Progress(0, ngen) == 100.0 / (ngen + 1) as real
  {
  }

  /** Progress rises strictly from generation to generation, stays within (0, 100],
      and reaches exactly 100 at the last generation. */
  lemma ProgressMonotone(g: nat, h: nat, ngen: nat)
    requires g < h <= ngen
    ensures 0.0 < Progress(g, ngen) < Progress(h, ngen) <= 100.0
  {
    var d := (ngen + 1) as real;
    assert Progress(g, ngen) * d == 100.0 * (g + 1) as real;
    assert Progress(h, ngen) * d == 100.0 * (h + 1) as real;
    assert (h + 1) as real <= d;
  }

  lemma ProgressComplete(ngen: nat)
    ensures Progress(ngen, ngen) == 100.0
  {
  }

  /** The log's records carry the generation indices 0, 1, 2, ... in order. */
  ghost predicate GensFromZero(log: seq<Record>) {
    forall i :: 0 <= i < |log| ==> log[i].gen == i
  }

  /** `performed_evals`: the evaluations of every logged generation added up. */
  function SumEvals(log: seq<Record>): nat {
    if log == [] then 0 else SumEvals(log[..|log| - 1]) + log[|log| - 1].nevals
  }

  lemma SumEvalsAppend(log: seq<Record>, r: Record)
    ensures SumEvals(log + [r]) == SumEvals(log) + r.nevals
  {
    assert (log + [r])[..|log|] == log;
  }

  /** Progress in a log whose generation indices run from zero increases strictly
      along the log and, for a log of all ngen+1 generations, ends at 100. */
  lemma {:induction false} LogProgressIncreasing(log: seq<Record>, ngen: nat)
    requires GensFromZero(log) && |log| <= ngen + 1
    requires forall i :: 0 <= i < |log| ==> log[i].progress == Progress(log[i].gen, ngen)
    ensures forall i, j :: 0 <= i < j < |log| ==> log[i].progress < log[j].progress
    ensures |log| == ngen + 1 ==> log[|log| - 1].progress == 100.0
  {
    forall i, j | 0 <= i < j < |log|
      ensures log[i].progress < log[j].progress
    {
      ProgressMonotone(i, j, ngen);
    }
  }
}

=== FILE: manifest.dfy ===
/** `dump_population` (gaudi/algorithms.py lines 170-188) as a pure mapping: given
    the individuals to write and the output configuration it computes the target
    directory, the manifest's path, the objective descriptors and the
    file-name-to-fitness map that the manifest serialises. Writing the files, the
    directory creation, the YAML text and the timestamp header are not modelled;
    each individual's own `write(i, path)` is a parameter returning the file name. */
module Manifests {
  import opened Wrappers
  import opened Strings
  import opened Individuals

  /** One configured objective: its name and the module that defines it. */
  datatype Objective = Objective(name: string, definedIn: string)

  /** `cfg.output`: where results go, their base name, and the checkpoint cadence
      (0 stands for any falsy value, which disables checkpoints). */
  datatype OutputConfig = OutputConfig(path: string, name: string, checkEvery: int)

  datatype Config = Config(output: OutputConfig, objectives: seq<Objective>)

  /** What one call of `dump_population` produces. `createsDirectory` records that a
      `mkdir` of `directory` is attempted; its failure is ignored either way. */
  datatype Manifest = Manifest(
    directory: string,
    createsDirectory: bool,
    file: string,
    objectives: seq<string>,
    results: map<string, seq<real>>)

  /** `individual.write(index, path=directory)`, returning the written file's name. */
  type Writer<!G> = (Individual<G>, nat, string) -> string

  const ManifestSuffix: string := ".gaudi-output"

  /** `'{} ({})'.format(obj.name, obj.module)` */
  function Describe(o: Objective): string {
    o.name + " (" + o.definedIn + ")"
  }

  function Descriptors(objs: seq<Objective>): (r: seq<string>)
    ensures |r| == |objs|
    ensures forall i :: 0 <= i < |objs| ==> r[i] == Describe(objs[i])
  {
    if objs == [] then [] else [Describe(objs[0])] + Descriptors(objs[1..])
  }

  function LastIndexOf(s: string, c: char): (r: Option<nat>)
    ensures r.Some? ==> r.value < |s| && s[r.value] == c && c !in s[r.value + 1..]
    ensures r.None? ==> c !in s
  {
    if s == [] then None
    else if s[|s| - 1] == c then Some(|s| - 1)
    else LastIndexOf(s[..|s| - 1], c)
  }

  /** Reads a descriptor back: the module is what lies between the last '(' and the
      closing ')', the name what precedes the " (" before it. */
  function ParseDescriptor(s: string): Option<Objective> {
    if |s| == 0 || s[|s| - 1] != ')' then None
    else match LastIndexOf(s[..|s| - 1], '(')
      case None => None
      case Some(p) =>
        if p == 0 || s[p - 1] != ' ' then None
        else Some(Objective(s[..p - 1], s[p + 1..|s| - 1]))
  }

  lemma {:induction false} LastIndexOfSplit(pre: string, c: char, post: string)
    requires c !in post
    ensures LastIndexOf(pre + [c] + post, c) == Some(|pre|)
    decreases |post|
  {
    var s := pre + [c] + post;
    if post != [] {
      assert s[..|s| - 1] == pre + [c] + post[..|post| - 1];
      LastIndexOfSplit(pre, c, post[..|post| - 1]);
    }
  }

  /** Descriptors identify their objective when the module name has no '(':
      two such objectives with equal descriptors are equal. */
  lemma DescriptorRoundTrip(o: Objective)
    requires '(' !in o.definedIn
    ensures ParseDescriptor(Describe(o)) == Some(o)
  {
    var s := Describe(o);
    assert s[..|s| - 1] == (o.name + " ") + ['('] + o.definedIn;
    LastIndexOfSplit(o.name + " ", '(', o.definedIn);
    var p := |o.name| + 1;
    assert s[..p - 1] == o.name;
    assert s[p + 1..|s| - 1] == o.definedIn;
  }

  /** `cfg.output.path`, or `os.path.join(cfg.output.path, subdir)` when a
      sub-directory is given. */
  function TargetDirectory(out: OutputConfig, subdir: Option<string>): (dir: string)
    ensures subdir.None? ==> dir == out.path
    ensures subdir.Some? && !(|subdir.value| > 0 && subdir.value[0] == '/') ==>
      |dir| >= |out.path| + |subdir.value| && dir[..|out.path|] == out.path && dir[|dir| - |subdir.value|..] == subdir.value
  {
    match subdir
    case None => out.path
    case Some(d) => Join(out.path, d)
  }

  /** The base names of the files `write` reports, one per individual, in order. */
  function ResultKeys<G>(pop: seq<Individual<G>>, write: Writer<G>, dir: string): (r: seq<string>)
    ensures |r| == |pop|
    ensures forall i :: 0 <= i < |pop| ==> r[i] == Basename(write(pop[i], i, dir))
  {
    seq(|pop|, i requires 0 <= i < |pop| => Basename(write(pop[i], i, dir)))
  }

  function FitnessValues<G>(pop: seq<Individual<G>>): (r: seq<seq<real>>)
    ensures |r| == |pop|
    ensures forall i :: 0 <= i < |pop| ==> r[i] == pop[i].Values()
  {
    seq(|pop|, i requires 0 <= i < |pop| => pop[i].Values())
  }

  /** The results map after the first n iterations of the write loop; a later
      individual whose file has the same base name overwrites an earlier entry. */
  function Results(keys: seq<string>, vals: seq<seq<real>>, n: nat): (m: map<string, seq<real>>)
    requires |keys| == |vals| && n <= |keys|
    ensures forall i :: 0 <= i < n ==> keys[i] in m
    ensures n > 0 ==> m[keys[n - 1]] == vals[n - 1]
  {
    if n == 0 then map[]
    else Results(keys, vals, n - 1)[keys[n - 1] := vals[n - 1]]
  }

  lemma {:induction false} ResultsKeys(keys: seq<string>, vals: seq<seq<real>>, n: nat)
    requires |keys| == |vals| && n <= |keys|
    ensures Results(keys, vals, n).Keys == set i | 0 <= i < n :: keys[i]
  {
    if n > 0 {
      ResultsKeys(keys, vals, n - 1);
      var before := set i | 0 <= i < n - 1 :: keys[i];
      var after := set i | 0 <= i < n :: keys[i];
      assert after == before + {keys[n - 1]};
    }
  }

  /** Each key holds the values of the last individual filed under it. */
  lemma {:induction false} ResultsLastWins(keys: seq<string>, vals: seq<seq<real>>, n: nat, i: nat)
    requires |keys| == |vals| && i < n <= |keys|
    requires forall j :: i < j < n ==> keys[j] != keys[i]
    ensures keys[i] in Results(keys, vals, n)
    ensures Results(keys, vals, n)[keys[i]] == vals[i]
  {
    if i < n - 1 {
      ResultsLastWins(keys, vals, n - 1, i);
    }
  }

  /** The map has at most one entry per individual, and exactly one per individual
      when the keys are pairwise distinct. */
  lemma {:induction false} ResultsSize(keys: seq<string>, vals: seq<seq<real>>, n: nat)
    requires |keys| == |vals| && n <= |keys|
    ensures |Results(keys, vals, n)| <= n
    ensures (forall i, j :: 0 <= i < j < n ==> keys[i] != keys[j]) ==> |Results(keys, vals, n)| == n
  {
    if n > 0 {
      ResultsSize(keys, vals, n - 1);
      ResultsKeys(keys, vals, n - 1);
    }
  }

  /** The manifest `dump_population(population, cfg, subdir)` writes: one
      descriptor per configured objective in order, and the fitness values of each
      individual filed under the base name of the file it wrote. */
  function DumpPopulation<G>(pop: seq<Individual<G>>, cfg: Config, subdir: Option<string>, write: Writer<G>): (m: Manifest)
    ensures m.directory == TargetDirectory(cfg.output, subdir)
    ensures m.createsDirectory <==> subdir.Some?
    ensures m.file == Join(m.directory, cfg.output.name + ManifestSuffix)
    ensures |m.objectives| == |cfg.objectives|
    ensures forall i :: 0 <= i < |cfg.objectives| ==> m.objectives[i] == Describe(cfg.objectives[i])
  {
    var dir := TargetDirectory(cfg.output, subdir);
    Manifest(dir, subdir.Some?, Join(dir, cfg.output.name + ManifestSuffix),
             Descriptors(cfg.objectives), Results(ResultKeys(pop, write, dir), FitnessValues(pop), |pop|))
  }

  /** The results map of a manifest: its keys are the base names of the files
      written, there are at most n of them and exactly n when those base names are
      distinct, and each holds the fitness values of the last individual whose file
      bears that name. */
  lemma ManifestResults<G>(pop: seq<Individual<G>>, cfg: Config, subdir: Option<string>, write: Writer<G>)
    ensures var m := DumpPopulation(pop, cfg, subdir, write);
      var keys := ResultKeys(pop, write, m.directory);
      && m.results.Keys == (set i | 0 <= i < |pop| :: keys[i])
      && |m.results| <= |pop|
      && ((forall i, j :: 0 <= i < j < |pop| ==> keys[i] != keys[j]) ==> |m.results| == |pop|)
      && (forall i :: 0 <= i < |pop| && (forall j :: i < j < |pop| ==> keys[j] != keys[i]) ==>
            keys[i] in m.results && m.results[keys[i]] == pop[i].Values())
  {
    var dir := TargetDirectory(cfg.output, subdir);
    var keys := ResultKeys(pop, write, dir);
    var vals := FitnessValues(pop);
    ResultsKeys(keys, vals, |pop|);
    ResultsSize(keys, vals, |pop|);
    forall i | 0 <= i < |pop| && (forall j :: i < j < |pop| ==> keys[j] != keys[i])
      ensures keys[i] in Results(keys, vals, |pop|) && Results(keys, vals, |pop|)[keys[i]] == pop[i].Values()
    {
      ResultsLastWins(keys, vals, |pop|, i);
    }
  }

  /** The manifest file is named `<name>.gaudi-output` inside the target directory,
      whatever that directory is, as long as the configured name has no '/'. */
  lemma ManifestName<G>(pop: seq<Individual<G>>, cfg: Config, subdir: Option<string>, write: Writer<G>)
    requires '/' !in cfg.output.name
    ensures Basename(DumpPopulation(pop, cfg, subdir, write).file) == cfg.output.name + ManifestSuffix
  {
    BasenameOfJoin(TargetDirectory(cfg.output, subdir), cfg.output.name + ManifestSuffix);
  }
}

=== FILE: properties.dfy ===
/** What a whole run of `ea_mu_plus_lambda` produces, drawn from `RunMatches`:
    which generation ends it, the log it returns, the size and validity of its
    populations, the checkpoints it attempts and the answers at the prompt. */
module DriverProperties {
  import opened Wrappers
  import opened Strings
  import opened Individuals
  import opened Logbook
  import opened Algorithms
  import opened Reference
  import opened Simulation

  /** The run ends at the first generation whose failure is present, and runs to
      the end exactly when no generation fails. */
  lemma FailedAtIsFirstFailure<G>(tb: Toolbox<G>, p: Params<G>, w: World, raw0: seq<Individual<G>>, hof0: Option<seq<Individual<G>>>)
    ensures var r := EaMuPlusLambda(tb, p, w, raw0, hof0);
      r.failedAt.None? <==> forall k :: 0 <= k <= p.ngen ==> GenFailure(tb, p, w, raw0, k).None?
    ensures var r := EaMuPlusLambda(tb, p, w, raw0, hof0);
      r.failedAt.Some? ==>
        var f := r.failedAt.value;
        && f <= p.ngen && GenFailure(tb, p, w, raw0, f).Some?
        && forall k :: 0 <= k < f ==> GenFailure(tb, p, w, raw0, k).None?
  {
    RunMatches(tb, p, w, raw0, hof0);
    ExpectedRunShape(tb, p, w, raw0, hof0, FirstFailure(tb, p, w, raw0, 0));
    FirstFailureIsFirst(tb, p, w, raw0, 0);
  }

  /** A log with the shape the driver gives it: generation indices 0, 1, ... in
      order, at most ngen+1 records, progress strictly increasing and reaching 100
      on a full log, each record's evaluation count that of its generation, and
      those counts adding up to the evaluations performed so far. */
  ghost predicate LogShaped<G>(tb: Toolbox<G>, p: Params<G>, raw0: seq<Individual<G>>, log: seq<Record>) {
    && GensFromZero(log)
    && |log| <= p.ngen + 1
    && (forall i, j :: 0 <= i < j < |log| ==> log[i].progress < log[j].progress)
    && (|log| == p.ngen + 1 ==> log[p.ngen].progress == 100.0)
    && (forall i :: 0 <= i < |log| ==> log[i].nevals == EvalsAt(tb, p.mu, raw0, i))
    && SumEvals(log) == TotalEvals(tb, p.mu, raw0, |log|)
  }

  /** The reference log of up to ngen+1 generations has that shape. */
  lemma ExpectedLogShape<G>(tb: Toolbox<G>, p: Params<G>, raw0: seq<Individual<G>>, n: nat)
    requires n <= p.ngen + 1
    ensures LogShaped(tb, p, raw0, ExpectedLog(tb, p, raw0, n))
  {
    var log := ExpectedLog(tb, p, raw0, n);
    forall i | 0 <= i < n
      ensures log[i] == ExpectedRecord(tb, p, raw0, i)
    {
      ExpectedLogAt(tb, p, raw0, n, i);
    }
    LogProgressIncreasing(log, p.ngen);
    LoggedEvalsAddUp(tb, p, raw0, n);
  }

  /** A returned log is the reference log of its own length: one record per
      generation that got as far as logging, at least generation 0's. */
  lemma CompletedLogIsExpected<G>(tb: Toolbox<G>, p: Params<G>, w: World, raw0: seq<Individual<G>>, hof0: Option<seq<Individual<G>>>)
    ensures var r := EaMuPlusLambda(tb, p, w, raw0, hof0);
      r.outcome.Completed? ==>
        && 1 <= |r.outcome.log| <= p.ngen + 1
        && r.outcome.log == ExpectedLog(tb, p, raw0, |r.outcome.log|)
  {
    RunMatches(tb, p, w, raw0, hof0);
    FirstFailureIsFirst(tb, p, w, raw0, 0);
  }

  /** A returned log has the driver's shape, holds at least generation 0's record,
      and holds all ngen+1 records when nothing failed. */
  lemma LogShape<G>(tb: Toolbox<G>, p: Params<G>, w: World, raw0: seq<Individual<G>>, hof0: Option<seq<Individual<G>>>)
    ensures var r := EaMuPlusLambda(tb, p, w, raw0, hof0);
      r.outcome.Completed? ==>
        && LogShaped(tb, p, raw0, r.outcome.log)
        && |r.outcome.log| >= 1
        && (r.failedAt.None? ==> |r.outcome.log| == p.ngen + 1)
  {
    var r := EaMuPlusLambda(tb, p, w, raw0, hof0);
    if r.outcome.Completed? {
      RunLogBounds(tb, p, w, raw0, hof0);
      CompletedLogIsExpected(tb, p, w, raw0, hof0);
      ExpectedLogShape(tb, p, raw0, |r.outcome.log|);
    }
  }

  /** `population[:] = toolbox.select(population + offspring, mu)` keeps mu
      individuals when selection returns as many as it is asked for from any
      non-empty pool (as a tournament, which draws with replacement, does). */
  ghost predicate HonoursK<G(!new)>(select: (seq<Individual<G>>, nat, nat) -> seq<Individual<G>>) {
    forall xs, k, gen :: (|xs| > 0 || k == 0) ==> |select(xs, k, gen)| == k
  }

  /** Selection only picks individuals from the pool it is given. */
  ghost predicate SelectsFromPool<G(!new)>(select: (seq<Individual<G>>, nat, nat) -> seq<Individual<G>>) {
    forall xs, k, gen, i :: 0 <= i < |select(xs, k, gen)| ==> select(xs, k, gen)[i] in xs
  }

  /** A selection that repeats the pool's first member k times: it shows that the
      two assumptions about selection can hold together. */
  function RepeatFirst<G>(xs: seq<Individual<G>>, k: nat, gen: nat): (r: seq<Individual<G>>)
    ensures |xs| > 0 ==> |r| == k
  {
    if |xs| == 0 then [] else seq(k, _ => xs[0])
  }

  lemma SelectionAssumptionsMeetable<G(!new)>()
    ensures HonoursK(RepeatFirst<G>) && SelectsFromPool(RepeatFirst<G>)
  {
    forall xs: seq<Individual<G>>, k: nat, gen: nat, i | 0 <= i < |RepeatFirst(xs, k, gen)|
      ensures RepeatFirst(xs, k, gen)[i] in xs
    {
      assert RepeatFirst(xs, k, gen)[i] == xs[0];
    }
  }

  /** From a non-empty initial population, every generation's pool is non-empty,
      so each selection returns mu individuals. */
  lemma {:induction false} EvolveSize<G(!new)>(tb: Toolbox<G>, mu: nat, pop0: seq<Individual<G>>, k: nat)
    requires HonoursK(tb.select) && |pop0| > 0 && k >= 1
    ensures |Evolve(tb, mu, pop0, k)| == mu
    decreases k
  {
    var prev := Evolve(tb, mu, pop0, k - 1);
    if k > 1 {
      EvolveSize(tb, mu, pop0, k - 1);
    }
    assert mu > 0 ==> |prev| > 0;
    assert |prev + Offspring(tb, prev, k)| >= |prev|;
  }

  /** A run whose generation 0 succeeded started from a non-empty population: the
      ETA division at line 106 raises when nobody needed evaluating. */
  lemma StartedNonEmpty<G>(tb: Toolbox<G>, p: Params<G>, w: World, raw0: seq<Individual<G>>)
    requires GenFailure(tb, p, w, raw0, 0).None?
    ensures |EvaluateEach(raw0, tb.evaluate)| > 0
  {
    assert CountInvalid(raw0) > 0;
    assert |Invalid(raw0)| <= |raw0|;
  }

  /** After any completed generation the population has exactly mu members, so a
      returned population has mu members unless generation 1 never completed. */
  lemma PopulationSizeIsMu<G(!new)>(tb: Toolbox<G>, p: Params<G>, w: World, raw0: seq<Individual<G>>, hof0: Option<seq<Individual<G>>>)
    requires HonoursK(tb.select)
    ensures var r := EaMuPlusLambda(tb, p, w, raw0, hof0);
      r.outcome.Completed? && ((r.failedAt.None? && p.ngen >= 1) || (r.failedAt.Some? && r.failedAt.value >= 2)) ==>
        |r.outcome.population| == p.mu
  {
    RunMatches(tb, p, w, raw0, hof0);
    var f := FirstFailure(tb, p, w, raw0, 0);
    ExpectedRunShape(tb, p, w, raw0, hof0, f);
    if GenerationsDone(p.ngen, f) >= 1 {
      FirstFailureIsFirst(tb, p, w, raw0, 0);
      StartedNonEmpty(tb, p, w, raw0);
      EvolveSize(tb, p.mu, EvaluateEach(raw0, tb.evaluate), GenerationsDone(p.ngen, f));
    }
  }

  /** Every individual handed to selection, and so every member of every population,
      has a valid fitness, provided selection only picks from its pool. */
  lemma {:induction false} EvolveValid<G(!new)>(tb: Toolbox<G>, mu: nat, pop0: seq<Individual<G>>, k: nat)
    requires SelectsFromPool(tb.select) && AllValid(pop0)
    ensures AllValid(Evolve(tb, mu, pop0, k))
    ensures k >= 1 ==> AllValid(Evolve(tb, mu, pop0, k - 1) + Offspring(tb, Evolve(tb, mu, pop0, k - 1), k))
  {
    if k >= 1 {
      EvolveValid(tb, mu, pop0, k - 1);
      var pool := Evolve(tb, mu, pop0, k - 1) + Offspring(tb, Evolve(tb, mu, pop0, k - 1), k);
      var next := Evolve(tb, mu, pop0, k);
      EvaluateInvalidIsEach(tb.vary(Evolve(tb, mu, pop0, k - 1), k), tb.evaluate);
      EvaluateInvalidSpec(tb.vary(Evolve(tb, mu, pop0, k - 1), k), tb.evaluate);
      assert AllValid(pool);
      forall i | 0 <= i < |next|
        ensures next[i].Valid()
      {
        assert next[i] in pool;
      }
    }
  }

  /** A returned population is fully evaluated. */
  lemma ReturnedPopulationValid<G(!new)>(tb: Toolbox<G>, p: Params<G>, w: World, raw0: seq<Individual<G>>, hof0: Option<seq<Individual<G>>>)
    requires SelectsFromPool(tb.select)
    ensures var r := EaMuPlusLambda(tb, p, w, raw0, hof0);
      r.outcome.Completed? ==> AllValid(r.outcome.population)
  {
    RunMatches(tb, p, w, raw0, hof0);
    var f := FirstFailure(tb, p, w, raw0, 0);
    ExpectedRunShape(tb, p, w, raw0, hof0, f);
    EvaluateInvalidIsEach(raw0, tb.evaluate);
    EvaluateInvalidSpec(raw0, tb.evaluate);
    EvolveValid(tb, p.mu, EvaluateEach(raw0, tb.evaluate), GenerationsDone(p.ngen, f));
  }

  /** For a selection that returns as many individuals as asked and picks them from
      its pool, a returned population is fully evaluated and, once generation 1
      has completed, has mu members. */
  lemma CompletedPopulation<G(!new)>(tb: Toolbox<G>, p: Params<G>, w: World, raw0: seq<Individual<G>>, hof0: Option<seq<Individual<G>>>)
    requires HonoursK(tb.select) && SelectsFromPool(tb.select)
    ensures var r := EaMuPlusLambda(tb, p, w, raw0, hof0);
      r.outcome.Completed? ==>
        && AllValid(r.outcome.population)
        && (((r.failedAt.None? && p.ngen >= 1) || (r.failedAt.Some? && r.failedAt.value >= 2)) ==> |r.outcome.population| == p.mu)
  {
    PopulationSizeIsMu(tb, p, w, raw0, hof0);
    ReturnedPopulationValid(tb, p, w, raw0, hof0);
  }

  /** A run in which nothing raises (every generation has something to evaluate)
      completes with ngen+1 records and the reference population after ngen
      generations. */
  lemma NoFailureCompletes<G>(tb: Toolbox<G>, p: Params<G>, w: World, raw0: seq<Individual<G>>, hof0: Option<seq<Individual<G>>>)
    requires forall k :: w.failAt(k).None?
    requires CountInvalid(raw0) > 0
    requires forall xs, gen :: CountInvalid(tb.vary(xs, gen)) > 0
    ensures var r := EaMuPlusLambda(tb, p, w, raw0, hof0);
      && r.failedAt.None?
      && r.outcome == Completed(Evolve(tb, p.mu, EvaluateEach(raw0, tb.evaluate), p.ngen), ExpectedLog(tb, p, raw0, p.ngen + 1))
      && r.unexpressed == []
  {
    forall k | 0 <= k <= p.ngen
      ensures GenFailure(tb, p, w, raw0, k).None?
    {
      if k > 0 {
        assert EvalsAt(tb, p.mu, raw0, k) > 0;
      }
    }
    FirstFailureIsFirst(tb, p, w, raw0, 0);
    RunMatches(tb, p, w, raw0, hof0);
  }

  /** An exception in generation 2, answered "yes": the generation-1 population and
      exactly two records come back. */
  lemma FailureInSecondGeneration<G>(tb: Toolbox<G>, p: Params<G>, w: World, raw0: seq<Individual<G>>, hof0: Option<seq<Individual<G>>>)
    requires p.ngen >= 2
    requires w.failAt(0).None? && w.failAt(1).None? && w.failAt(2) == Some(Evaluate)
    requires w.answer == Some("yes")
    requires CountInvalid(raw0) > 0
    requires forall xs, gen :: CountInvalid(tb.vary(xs, gen)) > 0
    ensures var r := EaMuPlusLambda(tb, p, w, raw0, hof0);
      && r.failedAt == Some(2)
      && r.outcome.Completed?
      && r.outcome.population == Evolve(tb, p.mu, EvaluateEach(raw0, tb.evaluate), 1)
      && |r.outcome.log| == 2
  {
    assert EvalsAt(tb, p.mu, raw0, 1) > 0;
    assert GenFailure(tb, p, w, raw0, 0).None? && GenFailure(tb, p, w, raw0, 1).None?;
    assert GenFailure(tb, p, w, raw0, 2) == Some(Evaluate);
    assert FirstFailure(tb, p, w, raw0, 2) == Some(2);
    assert FirstFailure(tb, p, w, raw0, 0) == Some(2);
    assert Affirmative("yes");
    RunMatches(tb, p, w, raw0, hof0);
  }

  /** When the exception strikes after selection replaced `population`, the
      individuals unexpressed are the new selection while the population returned
      is still the previous snapshot. */
  lemma LateFailureKeepsSnapshot<G>(tb: Toolbox<G>, p: Params<G>, w: World, raw0: seq<Individual<G>>, hof0: Option<seq<Individual<G>>>)
    requires p.ngen >= 1
    requires w.failAt(0).None? && w.failAt(1) == Some(Statistics)
    requires w.answer == Some("y")
    requires CountInvalid(raw0) > 0
    ensures var r := EaMuPlusLambda(tb, p, w, raw0, hof0);
      var pop0 := EvaluateEach(raw0, tb.evaluate);
      && r.failedAt == Some(1)
      && r.outcome == Completed(pop0, ExpectedLog(tb, p, raw0, 1))
      && r.unexpressed == tb.select(pop0 + Offspring(tb, pop0, 1), p.mu, 1)
  {
    assert GenFailure(tb, p, w, raw0, 0).None?;
    assert GenFailure(tb, p, w, raw0, 1) == Some(Statistics);
    assert FirstFailure(tb, p, w, raw0, 0) == Some(1);
    assert Affirmative("y");
    RunMatches(tb, p, w, raw0, hof0);
  }

  /** After a failure in the loop the prompt decides: no answer (the prompt itself
      raised) lets the exception escape, an answer other than "y"/"yes" in some
      letter case cancels, and only those two complete the run. */
  lemma PromptDecides<G>(tb: Toolbox<G>, p: Params<G>, w: World, raw0: seq<Individual<G>>, hof0: Option<seq<Individual<G>>>)
    ensures var r := EaMuPlusLambda(tb, p, w, raw0, hof0);
      r.outcome.Cancelled? <==>
        r.failedAt.Some? && r.failedAt.value >= 1 && w.answer.Some? && !Affirmative(w.answer.value)
    ensures var r := EaMuPlusLambda(tb, p, w, raw0, hof0);
      r.failedAt.Some? && r.failedAt.value >= 1 ==>
        (r.outcome.Completed? <==> w.answer.Some? && Affirmative(w.answer.value))
  {
    RunMatches(tb, p, w, raw0, hof0);
  }

  /** Each checkpoint of the first k generations is the attempt of a generation in
      1..k. */
  lemma {:induction false} CheckpointsAreDue<G>(tb: Toolbox<G>, p: Params<G>, w: World, raw0: seq<Individual<G>>, hof0: Option<seq<Individual<G>>>, k: nat)
    ensures forall i :: 0 <= i < |ExpectedCheckpoints(tb, p, w, raw0, hof0, k)| ==>
      1 <= ExpectedCheckpoints(tb, p, w, raw0, hof0, k)[i].gen <= k && AttemptedAt(tb, p, w, raw0, hof0, ExpectedCheckpoints(tb, p, w, raw0, hof0, k)[i])
    decreases k
  {
    if k > 0 {
      CheckpointsAreDue(tb, p, w, raw0, hof0, k - 1);
      var prev := ExpectedCheckpoints(tb, p, w, raw0, hof0, k - 1);
      var last := CheckpointAt(tb, p, w, raw0, hof0, k);
      var cs := ExpectedCheckpoints(tb, p, w, raw0, hof0, k);
      assert cs == prev + last;
      forall i | 0 <= i < |cs|
        ensures 1 <= cs[i].gen <= k && AttemptedAt(tb, p, w, raw0, hof0, cs[i])
      {
        if i < |prev| {
          assert cs[i] == prev[i];
        } else {
          assert cs[i] == last[0];
        }
      }
    }
  }

  /** The checkpoints come in generation order, one per generation at most. */
  lemma {:induction false} CheckpointsInOrder<G>(tb: Toolbox<G>, p: Params<G>, w: World, raw0: seq<Individual<G>>, hof0: Option<seq<Individual<G>>>, k: nat)
    ensures forall i, j :: 0 <= i < j < |ExpectedCheckpoints(tb, p, w, raw0, hof0, k)| ==> ExpectedCheckpoints(tb, p, w, raw0, hof0, k)[i].gen < ExpectedCheckpoints(tb, p, w, raw0, hof0, k)[j].gen
    decreases k
  {
    if k > 0 {
      CheckpointsInOrder(tb, p, w, raw0, hof0, k - 1);
      CheckpointsAreDue(tb, p, w, raw0, hof0, k - 1);
      var prev := ExpectedCheckpoints(tb, p, w, raw0, hof0, k - 1);
      var last := CheckpointAt(tb, p, w, raw0, hof0, k);
      var cs := ExpectedCheckpoints(tb, p, w, raw0, hof0, k);
      assert cs == prev + last;
      forall i, j | 0 <= i < j < |cs|
        ensures cs[i].gen < cs[j].gen
      {
        assert cs[i] == prev[i];
        if j < |prev| {
          assert cs[j] == prev[j];
        } else {
          assert cs[j] == last[0];
        }
      }
    }
  }

  /** Every generation in 1..k at which a checkpoint was due has one. */
  lemma {:induction false} DueCheckpointsTaken<G>(tb: Toolbox<G>, p: Params<G>, w: World, raw0: seq<Individual<G>>, hof0: Option<seq<Individual<G>>>, k: nat, g: nat)
    requires 1 <= g <= k
    requires CheckpointDue(HallOfFameAt(tb, p.mu, EvaluateEach(raw0, tb.evaluate), hof0, g), p.cfg.output.checkEvery, g)
    ensures exists i :: 0 <= i < |ExpectedCheckpoints(tb, p, w, raw0, hof0, k)| && ExpectedCheckpoints(tb, p, w, raw0, hof0, k)[i].gen == g
    decreases k
  {
    var prev := ExpectedCheckpoints(tb, p, w, raw0, hof0, k - 1);
    var last := CheckpointAt(tb, p, w, raw0, hof0, k);
    var cs := ExpectedCheckpoints(tb, p, w, raw0, hof0, k);
    assert cs == prev + last;
    if g < k {
      DueCheckpointsTaken(tb, p, w, raw0, hof0, k - 1, g);
      var i :| 0 <= i < |prev| && prev[i].gen == g;
      assert cs[i] == prev[i];
    } else {
      assert cs[|prev|] == last[0];
    }
  }

  /** Without a hall of fame there is nothing to checkpoint. */
  lemma {:induction false} NoHallOfFameNoCheckpoints<G>(tb: Toolbox<G>, p: Params<G>, w: World, raw0: seq<Individual<G>>, k: nat)
    ensures HallOfFameAt(tb, p.mu, EvaluateEach(raw0, tb.evaluate), None, k).None?
    ensures ExpectedCheckpoints(tb, p, w, raw0, None, k) == []
    decreases k
  {
    if k > 0 {
      NoHallOfFameNoCheckpoints(tb, p, w, raw0, k - 1);
    }
  }

  /** The checkpoints a run attempts are those of the generations that completed
      before the one that failed; none at all without a hall of fame. */
  lemma RunCheckpoints<G>(tb: Toolbox<G>, p: Params<G>, w: World, raw0: seq<Individual<G>>, hof0: Option<seq<Individual<G>>>)
    ensures var r := EaMuPlusLambda(tb, p, w, raw0, hof0);
      r.checkpoints == ExpectedCheckpoints(tb, p, w, raw0, hof0, GenerationsDone(p.ngen, r.failedAt))
    ensures hof0.None? ==> EaMuPlusLambda(tb, p, w, raw0, hof0).checkpoints == []
  {
    RunMatches(tb, p, w, raw0, hof0);
    var f := FirstFailure(tb, p, w, raw0, 0);
    ExpectedRunShape(tb, p, w, raw0, hof0, f);
    if hof0.None? {
      NoHallOfFameNoCheckpoints(tb, p, w, raw0, GenerationsDone(p.ngen, f));
    }
  }

  /** The caller's hall of fame, updated in place, after the call: it has absorbed
      every generation that completed, and the failing generation's individuals as
      well when the failure came after its update (line 97 or 129); it exists
      exactly when the caller gave one. */
  lemma RunHallOfFame<G>(tb: Toolbox<G>, p: Params<G>, w: World, raw0: seq<Individual<G>>, hof0: Option<seq<Individual<G>>>)
    ensures var r := EaMuPlusLambda(tb, p, w, raw0, hof0);
      r.failedAt.None? ==> r.hallOfFame == HallOfFameAt(tb, p.mu, EvaluateEach(raw0, tb.evaluate), hof0, p.ngen)
    ensures var r := EaMuPlusLambda(tb, p, w, raw0, hof0);
      r.failedAt.Some? ==>
        r.hallOfFame ==
          HallOfFameLeft(tb, p.mu, EvaluateEach(raw0, tb.evaluate), hof0, r.failedAt.value, GenFailure(tb, p, w, raw0, r.failedAt.value))
    ensures EaMuPlusLambda(tb, p, w, raw0, hof0).hallOfFame.Some? <==> hof0.Some?
  {
    RunMatches(tb, p, w, raw0, hof0);
    var f := FirstFailure(tb, p, w, raw0, 0);
    ExpectedRunShape(tb, p, w, raw0, hof0, f);
    ExpectedRunHallOfFame(tb, p, w, raw0, hof0, f);
  }

  /** A selection failure in generation 1, answered "y": the initial population
      comes back, but the hall of fame has already absorbed generation 1's
      offspring. */
  lemma SelectFailureUpdatesHallOfFame<G>(tb: Toolbox<G>, p: Params<G>, w: World, raw0: seq<Individual<G>>, hof0: Option<seq<Individual<G>>>)
    requires p.ngen >= 1
    requires w.failAt(0).None? && w.failAt(1) == Some(Select)
    requires w.answer == Some("y")
    requires CountInvalid(raw0) > 0
    ensures var r := EaMuPlusLambda(tb, p, w, raw0, hof0);
      var pop0 := EvaluateEach(raw0, tb.evaluate);
      && r.outcome.Completed? && r.outcome.population == pop0
      && r.hallOfFame == UpdateHallOfFame(tb, UpdateHallOfFame(tb, hof0, pop0), Offspring(tb, pop0, 1))
  {
    assert GenFailure(tb, p, w, raw0, 0).None?;
    assert GenFailure(tb, p, w, raw0, 1) == Some(Select);
    assert FirstFailure(tb, p, w, raw0, 0) == Some(1);
    assert Affirmative("y");
    RunMatches(tb, p, w, raw0, hof0);
  }

  /** Which generation fails does not depend on whether checkpoint dumps go
      through. */
  lemma {:induction false} FirstFailureIgnoresDumps<G>(tb: Toolbox<G>, p: Params<G>, w: World, d: nat -> bool, raw0: seq<Individual<G>>, k: nat)
    ensures FirstFailure(tb, p, w, raw0, k) == FirstFailure(tb, p, w.(dumpSucceeds := d), raw0, k)
    decreases p.ngen + 1 - k
  {
    var w' := w.(dumpSucceeds := d);
    assert GenFailure(tb, p, w, raw0, k) == GenFailure(tb, p, w', raw0, k);
    if k <= p.ngen {
      FirstFailureIgnoresDumps(tb, p, w, d, raw0, k + 1);
    }
  }

  lemma ExpectedRunIgnoresDumps<G>(tb: Toolbox<G>, p: Params<G>, w: World, d: nat -> bool, raw0: seq<Individual<G>>, hof0: Option<seq<Individual<G>>>, failed: Option<nat>)
    ensures var r := ExpectedRun(tb, p, w, raw0, hof0, failed);
      var r' := ExpectedRun(tb, p, w.(dumpSucceeds := d), raw0, hof0, failed);
      r.outcome == r'.outcome && r.failedAt == r'.failedAt && r.unexpressed == r'.unexpressed
      && r.hallOfFame == r'.hallOfFame
  {
    if failed.Some? {
      assert GenFailure(tb, p, w, raw0, failed.value) == GenFailure(tb, p, w.(dumpSucceeds := d), raw0, failed.value);
    }
  }

  /** A failed checkpoint dump is only logged: whether dumps go through changes
      neither the outcome nor where the run stopped nor what was unexpressed. */
  lemma DumpFailuresHarmless<G>(tb: Toolbox<G>, p: Params<G>, w: World, d: nat -> bool, raw0: seq<Individual<G>>, hof0: Option<seq<Individual<G>>>)
    ensures var r := EaMuPlusLambda(tb, p, w, raw0, hof0);
      var r' := EaMuPlusLambda(tb, p, w.(dumpSucceeds := d), raw0, hof0);
      r.outcome == r'.outcome && r.failedAt == r'.failedAt && r.unexpressed == r'.unexpressed
      && r.hallOfFame == r'.hallOfFame
  {
    RunMatches(tb, p, w, raw0, hof0);
    RunMatches(tb, p, w.(dumpSucceeds := d), raw0, hof0);
    FirstFailureIgnoresDumps(tb, p, w, d, raw0, 0);
    ExpectedRunIgnoresDumps(tb, p, w, d, raw0, hof0, FirstFailure(tb, p, w, raw0, 0));
  }
}

=== FILE: reference.dfy ===
/** Reference definitions of what a run of `ea_mu_plus_lambda` should produce,
    written without the driver's state: the docstring's sketch of the algorithm
    (gaudi/algorithms.py lines 74-78) for the populations, and the record and the
    checkpoint attempt each successful generation contributes. */
module Reference {
  import opened Wrappers
  import opened Strings
  import opened Individuals
  import opened Logbook
  import opened Algorithms

  /** The evaluated offspring of generation `gen` bred from `pop`. */
  function Offspring<G>(tb: Toolbox<G>, pop: seq<Individual<G>>, gen: nat): seq<Individual<G>> {
    EvaluateEach(tb.vary(pop, gen), tb.evaluate)
  }

  /** The population after k generations of
      `population = select(population + offspring, mu)`, starting from `pop0`. */
  function Evolve<G>(tb: Toolbox<G>, mu: nat, pop0: seq<Individual<G>>, k: nat): seq<Individual<G>>
    decreases k
  {
    if k == 0 then pop0
    else
      var prev := Evolve(tb, mu, pop0, k - 1);
      tb.select(prev + Offspring(tb, prev, k), mu, k)
  }

  /** The hall of fame after the update of generation k (generation 0 absorbs the
      initial population, later ones their offspring). */
  function HallOfFameAt<G>(tb: Toolbox<G>, mu: nat, pop0: seq<Individual<G>>, hof0: Option<seq<Individual<G>>>, k: nat): Option<seq<Individual<G>>>
    decreases k
  {
    if k == 0 then UpdateHallOfFame(tb, hof0, pop0)
    else
      var prev := Evolve(tb, mu, pop0, k - 1);
      UpdateHallOfFame(tb, HallOfFameAt(tb, mu, pop0, hof0, k - 1), Offspring(tb, prev, k))
  }

  /** The hall of fame is present after any number of updates exactly when the
      caller gave one. */
  lemma {:induction false} HallOfFameAtPresent<G>(tb: Toolbox<G>, mu: nat, pop0: seq<Individual<G>>, hof0: Option<seq<Individual<G>>>, k: nat)
    ensures HallOfFameAt(tb, mu, pop0, hof0, k).Some? <==> hof0.Some?
    decreases k
  {
    if k > 0 {
      HallOfFameAtPresent(tb, mu, pop0, hof0, k - 1);
    }
  }

  /** Number of evaluations generation k performs: the invalid individuals of the
      initial population, or of generation k's offspring before evaluation. */
  function EvalsAt<G>(tb: Toolbox<G>, mu: nat, raw0: seq<Individual<G>>, k: nat): nat {
    if k == 0 then CountInvalid(raw0)
    else CountInvalid(tb.vary(Evolve(tb, mu, EvaluateEach(raw0, tb.evaluate), k - 1), k))
  }

  /** Evaluations of generations 0..n-1 together. */
  function TotalEvals<G>(tb: Toolbox<G>, mu: nat, raw0: seq<Individual<G>>, n: nat): nat
    decreases n
  {
    if n == 0 then 0 else TotalEvals(tb, mu, raw0, n - 1) + EvalsAt(tb, mu, raw0, n - 1)
  }

  /** The record generation k logs. */
  function ExpectedRecord<G>(tb: Toolbox<G>, p: Params<G>, raw0: seq<Individual<G>>, k: nat): Record {
    Record(k, Progress(k, p.ngen), EvalsAt(tb, p.mu, raw0, k),
           Compile(p.stats, Evolve(tb, p.mu, EvaluateEach(raw0, tb.evaluate), k)))
  }

  /** The records of generations 0..n-1. */
  function ExpectedLog<G>(tb: Toolbox<G>, p: Params<G>, raw0: seq<Individual<G>>, n: nat): (r: seq<Record>)
    ensures |r| == n
    decreases n
  {
    if n == 0 then [] else ExpectedLog(tb, p, raw0, n - 1) + [ExpectedRecord(tb, p, raw0, n - 1)]
  }

  lemma {:induction false} ExpectedLogAt<G>(tb: Toolbox<G>, p: Params<G>, raw0: seq<Individual<G>>, n: nat, i: nat)
    requires i < n
    ensures ExpectedLog(tb, p, raw0, n)[i] == ExpectedRecord(tb, p, raw0, i)
    decreases n
  {
    var prev := ExpectedLog(tb, p, raw0, n - 1);
    assert ExpectedLog(tb, p, raw0, n) == prev + [ExpectedRecord(tb, p, raw0, n - 1)];
    if i < n - 1 {
      ExpectedLogAt(tb, p, raw0, n - 1, i);
      assert ExpectedLog(tb, p, raw0, n)[i] == prev[i];
    }
  }

  /** The evaluations the reference log records add up to the running total. */
  lemma {:induction false} LoggedEvalsAddUp<G>(tb: Toolbox<G>, p: Params<G>, raw0: seq<Individual<G>>, n: nat)
    ensures SumEvals(ExpectedLog(tb, p, raw0, n)) == TotalEvals(tb, p.mu, raw0, n)
    decreases n
  {
    if n > 0 {
      LoggedEvalsAddUp(tb, p, raw0, n - 1);
      SumEvalsAppend(ExpectedLog(tb, p, raw0, n - 1), ExpectedRecord(tb, p, raw0, n - 1));
    }
  }

  /** The checkpoint attempts of the first k successful generations. */
  function ExpectedCheckpoints<G>(tb: Toolbox<G>, p: Params<G>, w: World, raw0: seq<Individual<G>>, hof0: Option<seq<Individual<G>>>, k: nat): seq<Checkpoint<G>>
    decreases k
  {
    if k == 0 then [] else ExpectedCheckpoints(tb, p, w, raw0, hof0, k - 1) + CheckpointAt(tb, p, w, raw0, hof0, k)
  }

  /** The checkpoint attempt of successful generation k, if one is due. */
  function CheckpointAt<G>(tb: Toolbox<G>, p: Params<G>, w: World, raw0: seq<Individual<G>>, hof0: Option<seq<Individual<G>>>, k: nat): seq<Checkpoint<G>> {
    var hof := HallOfFameAt(tb, p.mu, EvaluateEach(raw0, tb.evaluate), hof0, k);
    if CheckpointDue(hof, p.cfg.output.checkEvery, k) then [Checkpoint(k, hof.value, w.dumpSucceeds(k))] else []
  }

  /** Checkpoint c is the one generation c.gen attempts: a dump was due then, it
      holds the hall of fame as it stood after that generation, and it records
      whether that generation's dump went through. */
  ghost predicate AttemptedAt<G>(tb: Toolbox<G>, p: Params<G>, w: World, raw0: seq<Individual<G>>, hof0: Option<seq<Individual<G>>>, c: Checkpoint<G>) {
    var hof := HallOfFameAt(tb, p.mu, EvaluateEach(raw0, tb.evaluate), hof0, c.gen);
    && CheckpointDue(hof, p.cfg.output.checkEvery, c.gen)
    && c.members == hof.value
    && c.written == w.dumpSucceeds(c.gen)
  }

  /** The failure, if any, that ends generation k when generations 0..k-1 succeeded. */
  function GenFailure<G>(tb: Toolbox<G>, p: Params<G>, w: World, raw0: seq<Individual<G>>, k: nat): Option<Stage> {
    if k == 0 then InitialFailure(w.failAt(0), CountInvalid(raw0), p.verbose)
    else Failure(w.failAt(k), EvalsAt(tb, p.mu, raw0, k), p.verbose)
  }

  /** The first generation from k to ngen whose reference failure is present. */
  function FirstFailure<G>(tb: Toolbox<G>, p: Params<G>, w: World, raw0: seq<Individual<G>>, k: nat): Option<nat>
    decreases p.ngen + 1 - k
  {
    if k > p.ngen then None
    else if GenFailure(tb, p, w, raw0, k).Some? then Some(k)
    else FirstFailure(tb, p, w, raw0, k + 1)
  }

  /** A failure found from k on lies between k and ngen. */
  lemma {:induction false} FirstFailureBounds<G>(tb: Toolbox<G>, p: Params<G>, w: World, raw0: seq<Individual<G>>, k: nat)
    ensures FirstFailure(tb, p, w, raw0, k).Some? ==> k <= FirstFailure(tb, p, w, raw0, k).value <= p.ngen
    decreases p.ngen + 1 - k
  {
    if k <= p.ngen && GenFailure(tb, p, w, raw0, k).None? {
      FirstFailureBounds(tb, p, w, raw0, k + 1);
    }
  }

  /** A failure found from k on is a generation that fails. */
  lemma {:induction false} FirstFailureFails<G>(tb: Toolbox<G>, p: Params<G>, w: World, raw0: seq<Individual<G>>, k: nat)
    ensures FirstFailure(tb, p, w, raw0, k).Some? ==> GenFailure(tb, p, w, raw0, FirstFailure(tb, p, w, raw0, k).value).Some?
    decreases p.ngen + 1 - k
  {
    if k <= p.ngen && GenFailure(tb, p, w, raw0, k).None? {
      FirstFailureFails(tb, p, w, raw0, k + 1);
    }
  }

  /** `FirstFailure` finds nothing exactly when no generation from k on fails. */
  lemma {:induction false} FirstFailureNone<G>(tb: Toolbox<G>, p: Params<G>, w: World, raw0: seq<Individual<G>>, k: nat)
    ensures FirstFailure(tb, p, w, raw0, k).None? <==> forall j :: k <= j <= p.ngen ==> GenFailure(tb, p, w, raw0, j).None?
    decreases p.ngen + 1 - k
  {
    if k <= p.ngen && GenFailure(tb, p, w, raw0, k).None? {
      FirstFailureNone(tb, p, w, raw0, k + 1);
    }
  }

  /** A failure `FirstFailure` finds is preceded by none from k on. */
  lemma {:induction false} FirstFailureEarliest<G>(tb: Toolbox<G>, p: Params<G>, w: World, raw0: seq<Individual<G>>, k: nat)
    ensures FirstFailure(tb, p, w, raw0, k).Some? ==>
      forall j :: k <= j < FirstFailure(tb, p, w, raw0, k).value ==> GenFailure(tb, p, w, raw0, j).None?
    decreases p.ngen + 1 - k
  {
    if k <= p.ngen && GenFailure(tb, p, w, raw0, k).None? {
      FirstFailureEarliest(tb, p, w, raw0, k + 1);
    }
  }

  /** `FirstFailure` finds nothing exactly when no generation from k on fails, and
      otherwise the earliest one that does. */
  lemma FirstFailureIsFirst<G>(tb: Toolbox<G>, p: Params<G>, w: World, raw0: seq<Individual<G>>, k: nat)
    ensures FirstFailure(tb, p, w, raw0, k).None? <==> forall j :: k <= j <= p.ngen ==> GenFailure(tb, p, w, raw0, j).None?
    ensures FirstFailure(tb, p, w, raw0, k).Some? ==>
      var f := FirstFailure(tb, p, w, raw0, k).value;
      && k <= f <= p.ngen && GenFailure(tb, p, w, raw0, f).Some?
      && forall j :: k <= j < f ==> GenFailure(tb, p, w, raw0, j).None?
  {
    FirstFailureNone(tb, p, w, raw0, k);
    FirstFailureBounds(tb, p, w, raw0, k);
    FirstFailureFails(tb, p, w, raw0, k);
    FirstFailureEarliest(tb, p, w, raw0, k);
  }

  /** Whether a failure strikes after `population[:] = select(...)` replaced the
      population: in the statistics block or in the report. */
  predicate AfterSelect(stage: Option<Stage>) {
    stage == Some(Statistics) || stage == Some(Report)
  }

  /** The records logged when generation f >= 1 fails at `stage`: one per earlier
      generation, plus f's own when only the report failed. */
  function LoggedBefore(f: nat, stage: Option<Stage>): nat {
    if stage == Some(Report) then f + 1 else f
  }

  /** Whether a failure strikes after the hall of fame absorbed the generation's
      individuals (line 97 or 129): in selection or later. */
  predicate AfterHallOfFame(stage: Option<Stage>) {
    stage == Some(Select) || AfterSelect(stage)
  }

  /** The caller's hall of fame when generation f fails at `stage`: updated by f
      itself when the failure came after the update, and otherwise as generation
      f-1 left it (the caller's own for a failure in generation 0). */
  function HallOfFameLeft<G>(tb: Toolbox<G>, mu: nat, pop0: seq<Individual<G>>, hof0: Option<seq<Individual<G>>>, f: nat, stage: Option<Stage>): Option<seq<Individual<G>>> {
    if AfterHallOfFame(stage) then HallOfFameAt(tb, mu, pop0, hof0, f)
    else if f == 0 then hof0
    else HallOfFameAt(tb, mu, pop0, hof0, f - 1)
  }

  /** The number of generations after 0 that completed in a run that stopped at
      `failed`: all ngen when nothing failed, none when generation 0 failed, and
      those before the failing one otherwise. */
  function GenerationsDone(ngen: nat, failed: Option<nat>): nat {
    match failed
    case None => ngen
    case Some(f) => if f == 0 then 0 else f - 1
  }

  /** A generation that does not fail passes the search on to the next one. */
  lemma FirstFailureSkips<G>(tb: Toolbox<G>, p: Params<G>, w: World, raw0: seq<Individual<G>>, k: nat)
    requires k <= p.ngen && GenFailure(tb, p, w, raw0, k).None?
    ensures FirstFailure(tb, p, w, raw0, k) == FirstFailure(tb, p, w, raw0, k + 1)
  {
  }

  /** The run the reference definitions predict when `failed` is the first failing
      generation (`None` when every generation succeeds): a failure in generation 0
      escapes; a later one is answered at the prompt, and a "yes" returns the
      population and records of the generations before it (plus its own record
      when only the report failed), with `unexpress` attempted on the selection of
      the failing generation when the failure came after selection. */
  function ExpectedRun<G>(tb: Toolbox<G>, p: Params<G>, w: World, raw0: seq<Individual<G>>, hof0: Option<seq<Individual<G>>>, failed: Option<nat>): Run<G> {
    var pop0 := EvaluateEach(raw0, tb.evaluate);
    match failed
    case None =>
      Run(Completed(Evolve(tb, p.mu, pop0, p.ngen), ExpectedLog(tb, p, raw0, p.ngen + 1)), None, [],
          ExpectedCheckpoints(tb, p, w, raw0, hof0, p.ngen), HallOfFameAt(tb, p.mu, pop0, hof0, p.ngen))
    case Some(f) =>
      var stage := GenFailure(tb, p, w, raw0, f);
      var hof := HallOfFameLeft(tb, p.mu, pop0, hof0, f, stage);
      if f == 0 then Run(Raised, Some(0), [], [], hof)
      else
        var checkpoints := ExpectedCheckpoints(tb, p, w, raw0, hof0, f - 1);
        if w.answer.None? then Run(Raised, Some(f), [], checkpoints, hof)
        else if !Affirmative(w.answer.value) then Run(Cancelled, Some(f), [], checkpoints, hof)
        else
          Run(Completed(Evolve(tb, p.mu, pop0, f - 1), ExpectedLog(tb, p, raw0, LoggedBefore(f, stage))),
              Some(f), if AfterSelect(stage) then Evolve(tb, p.mu, pop0, f) else Evolve(tb, p.mu, pop0, f - 1), checkpoints, hof)
  }

  /** The hall of fame the reference run leaves: that of the last generation when
      nothing failed, and `HallOfFameLeft` of the failing generation otherwise; it
      is present exactly when the caller gave one. */
  lemma ExpectedRunHallOfFame<G>(tb: Toolbox<G>, p: Params<G>, w: World, raw0: seq<Individual<G>>, hof0: Option<seq<Individual<G>>>, failed: Option<nat>)
    ensures failed.None? ==>
      ExpectedRun(tb, p, w, raw0, hof0, failed).hallOfFame == HallOfFameAt(tb, p.mu, EvaluateEach(raw0, tb.evaluate), hof0, p.ngen)
    ensures failed.Some? ==>
      ExpectedRun(tb, p, w, raw0, hof0, failed).hallOfFame ==
      HallOfFameLeft(tb, p.mu, EvaluateEach(raw0, tb.evaluate), hof0, failed.value, GenFailure(tb, p, w, raw0, failed.value))
    ensures ExpectedRun(tb, p, w, raw0, hof0, failed).hallOfFame.Some? <==> hof0.Some?
  {
    var pop0 := EvaluateEach(raw0, tb.evaluate);
    match failed
    case None =>
      HallOfFameAtPresent(tb, p.mu, pop0, hof0, p.ngen);
    case Some(f) =>
      HallOfFameAtPresent(tb, p.mu, pop0, hof0, f);
      if f > 0 {
        HallOfFameAtPresent(tb, p.mu, pop0, hof0, f - 1);
      }
  }

  /** The reference run stops where it is told to, holds the checkpoints of the
      generations that completed, and returns the population they produced. */
  lemma ExpectedRunShape<G>(tb: Toolbox<G>, p: Params<G>, w: World, raw0: seq<Individual<G>>, hof0: Option<seq<Individual<G>>>, failed: Option<nat>)
    ensures ExpectedRun(tb, p, w, raw0, hof0, failed).failedAt == failed
    ensures ExpectedRun(tb, p, w, raw0, hof0, failed).checkpoints ==
      ExpectedCheckpoints(tb, p, w, raw0, hof0, GenerationsDone(p.ngen, failed))
    ensures ExpectedRun(tb, p, w, raw0, hof0, failed).outcome.Completed? ==>
      && failed != Some(0)
      && ExpectedRun(tb, p, w, raw0, hof0, failed).outcome.population ==
         Evolve(tb, p.mu, EvaluateEach(raw0, tb.evaluate), GenerationsDone(p.ngen, failed))
  {
  }
}

=== FILE: simulation.dfy ===
/** The driver computes the reference run: generation by generation, its state
    matches the reference definitions, and the run it returns is `ExpectedRun`
    for the first generation whose reference failure is present. */
module Simulation {
  import opened Wrappers
  import opened Individuals
  import opened Logbook
  import opened Algorithms
  import opened Reference

  /** The driver's state at the top of generation `gen` after generations
      0..gen-1 all succeeded: the population and the snapshot after gen-1
      generations, a record for each of them, their evaluations added up, the hall
      of fame they updated and the checkpoints they attempted. */
  function ReachedState<G>(tb: Toolbox<G>, p: Params<G>, w: World, raw0: seq<Individual<G>>, hof0: Option<seq<Individual<G>>>, gen: nat): State<G>
    requires gen >= 1
  {
    var pop0 := EvaluateEach(raw0, tb.evaluate);
    var pop := Evolve(tb, p.mu, pop0, gen - 1);
    State(pop, pop, ExpectedLog(tb, p, raw0, gen), TotalEvals(tb, p.mu, raw0, gen),
          HallOfFameAt(tb, p.mu, pop0, hof0, gen - 1), ExpectedCheckpoints(tb, p, w, raw0, hof0, gen - 1))
  }

  /** The next population and the record generation `gen` computes from state `s`,
      and the state it hands to the `else:` branch. */
  function NextPopulation<G>(tb: Toolbox<G>, p: Params<G>, s: State<G>, gen: nat): seq<Individual<G>> {
    tb.select(s.population + EvaluateInvalid(tb.vary(s.population, gen), tb.evaluate), p.mu, gen)
  }

  function NextRecord<G>(tb: Toolbox<G>, p: Params<G>, s: State<G>, gen: nat): Record {
    Record(gen, Progress(gen, p.ngen), CountInvalid(tb.vary(s.population, gen)), Compile(p.stats, NextPopulation(tb, p, s, gen)))
  }

  function Committed<G>(tb: Toolbox<G>, p: Params<G>, s: State<G>, gen: nat): State<G> {
    s.(hallOfFame := UpdateHallOfFame(tb, s.hallOfFame, EvaluateInvalid(tb.vary(s.population, gen), tb.evaluate)),
       population := NextPopulation(tb, p, s, gen),
       performed := s.performed + CountInvalid(tb.vary(s.population, gen)),
       log := s.log + [NextRecord(tb, p, s, gen)])
  }

  ghost predicate EarlyStage(f: Option<Stage>) {
    f == Some(Vary) || f == Some(Evaluate) || f == Some(HallOfFameUpdate) || f == Some(Select)
  }

  lemma GenerationEarly<G>(tb: Toolbox<G>, p: Params<G>, w: World, s: State<G>, gen: nat)
    requires EarlyStage(w.failAt(gen))
    ensures Generation(tb, p, w, s, gen).Interrupted?
    ensures Generation(tb, p, w, s, gen).state.population == s.population
    ensures Generation(tb, p, w, s, gen).state.log == s.log
  {
  }

  lemma GenerationStatistics<G>(tb: Toolbox<G>, p: Params<G>, w: World, s: State<G>, gen: nat)
    requires !EarlyStage(w.failAt(gen))
    requires w.failAt(gen) == Some(Statistics) || CountInvalid(tb.vary(s.population, gen)) == 0
    ensures Generation(tb, p, w, s, gen).Interrupted?
    ensures Generation(tb, p, w, s, gen).state.population == NextPopulation(tb, p, s, gen)
    ensures Generation(tb, p, w, s, gen).state.log == s.log
  {
  }

  lemma GenerationReport<G>(tb: Toolbox<G>, p: Params<G>, w: World, s: State<G>, gen: nat)
    requires !EarlyStage(w.failAt(gen))
    requires w.failAt(gen) != Some(Statistics) && CountInvalid(tb.vary(s.population, gen)) > 0
    requires w.failAt(gen) == Some(Report) && p.verbose
    ensures Generation(tb, p, w, s, gen) == Interrupted(Committed(tb, p, s, gen))
  {
  }

  lemma GenerationSucceeds<G>(tb: Toolbox<G>, p: Params<G>, w: World, s: State<G>, gen: nat)
    requires !EarlyStage(w.failAt(gen))
    requires w.failAt(gen) != Some(Statistics) && CountInvalid(tb.vary(s.population, gen)) > 0
    requires !(w.failAt(gen) == Some(Report) && p.verbose)
    ensures Generation(tb, p, w, s, gen) == Advanced(Commit(tb, p, w, Committed(tb, p, s, gen), gen))
  {
  }

  lemma CommitCheckpoints<G>(tb: Toolbox<G>, p: Params<G>, w: World, raw0: seq<Individual<G>>, hof0: Option<seq<Individual<G>>>, s: State<G>, gen: nat)
    requires gen >= 1
    requires s.population == Evolve(tb, p.mu, EvaluateEach(raw0, tb.evaluate), gen - 1)
    requires s.hallOfFame == HallOfFameAt(tb, p.mu, EvaluateEach(raw0, tb.evaluate), hof0, gen - 1)
    requires s.checkpoints == ExpectedCheckpoints(tb, p, w, raw0, hof0, gen - 1)
    ensures Committed(tb, p, s, gen).hallOfFame == HallOfFameAt(tb, p.mu, EvaluateEach(raw0, tb.evaluate), hof0, gen)
    ensures Commit(tb, p, w, Committed(tb, p, s, gen), gen).checkpoints == ExpectedCheckpoints(tb, p, w, raw0, hof0, gen)
  {
    EvaluateInvalidIsEach(tb.vary(s.population, gen), tb.evaluate);
  }

  lemma CommittedLog<G>(tb: Toolbox<G>, p: Params<G>, raw0: seq<Individual<G>>, s: State<G>, gen: nat)
    requires gen >= 1
    requires s.population == Evolve(tb, p.mu, EvaluateEach(raw0, tb.evaluate), gen - 1)
    requires s.log == ExpectedLog(tb, p, raw0, gen)
    requires s.performed == TotalEvals(tb, p.mu, raw0, gen)
    ensures Committed(tb, p, s, gen).log == ExpectedLog(tb, p, raw0, gen + 1)
    ensures Committed(tb, p, s, gen).population == Evolve(tb, p.mu, EvaluateEach(raw0, tb.evaluate), gen)
    ensures Committed(tb, p, s, gen).performed == TotalEvals(tb, p.mu, raw0, gen + 1)
  {
    EvaluateInvalidIsEach(tb.vary(s.population, gen), tb.evaluate);
    assert NextRecord(tb, p, s, gen) == ExpectedRecord(tb, p, raw0, gen);
  }

  /** From a reached state, the committed state of a successful generation is the
      reached state of the next one. */
  lemma CommitReaches<G>(tb: Toolbox<G>, p: Params<G>, w: World, raw0: seq<Individual<G>>, hof0: Option<seq<Individual<G>>>, gen: nat)
    requires 1 <= gen <= p.ngen
    ensures Commit(tb, p, w, Committed(tb, p, ReachedState(tb, p, w, raw0, hof0, gen), gen), gen) == ReachedState(tb, p, w, raw0, hof0, gen + 1)
  {
    var s := ReachedState(tb, p, w, raw0, hof0, gen);
    CommittedLog(tb, p, raw0, s, gen);
    CommitCheckpoints(tb, p, w, raw0, hof0, s, gen);
  }

  /** A generation whose reference failure is absent advances from the reached
      state to the next one. */
  lemma GenerationAdvances<G>(tb: Toolbox<G>, p: Params<G>, w: World, raw0: seq<Individual<G>>, hof0: Option<seq<Individual<G>>>, gen: nat)
    requires 1 <= gen <= p.ngen && GenFailure(tb, p, w, raw0, gen).None?
    ensures Generation(tb, p, w, ReachedState(tb, p, w, raw0, hof0, gen), gen) == Advanced(ReachedState(tb, p, w, raw0, hof0, gen + 1))
  {
    var s := ReachedState(tb, p, w, raw0, hof0, gen);
    assert EvalsAt(tb, p.mu, raw0, gen) == CountInvalid(tb.vary(s.population, gen));
    GenerationSucceeds(tb, p, w, s, gen);
    CommitReaches(tb, p, w, raw0, hof0, gen);
  }

  /** The state a failing generation leaves for the interruption branch: the old
      snapshot and checkpoints, the log extended only by a report failure, and a
      population already replaced by selection when the failure came after it. */
  ghost predicate LeftForInterruption<G>(tb: Toolbox<G>, p: Params<G>, w: World, raw0: seq<Individual<G>>, hof0: Option<seq<Individual<G>>>, st: State<G>, gen: nat, stage: Option<Stage>)
    requires gen >= 1
  {
    var pop0 := EvaluateEach(raw0, tb.evaluate);
    && st.snapshot == Evolve(tb, p.mu, pop0, gen - 1)
    && st.checkpoints == ExpectedCheckpoints(tb, p, w, raw0, hof0, gen - 1)
    && st.hallOfFame == HallOfFameLeft(tb, p.mu, pop0, hof0, gen, stage)
    && st.log == ExpectedLog(tb, p, raw0, LoggedBefore(gen, stage))
    && st.population == (if AfterSelect(stage) then Evolve(tb, p.mu, pop0, gen) else Evolve(tb, p.mu, pop0, gen - 1))
  }

  lemma InterruptedEarly<G>(tb: Toolbox<G>, p: Params<G>, w: World, raw0: seq<Individual<G>>, hof0: Option<seq<Individual<G>>>, gen: nat)
    requires 1 <= gen <= p.ngen && EarlyStage(w.failAt(gen))
    ensures GenFailure(tb, p, w, raw0, gen) == w.failAt(gen)
    ensures Generation(tb, p, w, ReachedState(tb, p, w, raw0, hof0, gen), gen).Interrupted?
    ensures LeftForInterruption(tb, p, w, raw0, hof0, Generation(tb, p, w, ReachedState(tb, p, w, raw0, hof0, gen), gen).state, gen, w.failAt(gen))
  {
    var s := ReachedState(tb, p, w, raw0, hof0, gen);
    GenerationEarly(tb, p, w, s, gen);
    GenerationEffect(tb, p, w, s, gen);
    EvaluateInvalidIsEach(tb.vary(s.population, gen), tb.evaluate);
    assert !AfterSelect(w.failAt(gen));
  }

  lemma InterruptedInStatistics<G>(tb: Toolbox<G>, p: Params<G>, w: World, raw0: seq<Individual<G>>, hof0: Option<seq<Individual<G>>>, gen: nat)
    requires 1 <= gen <= p.ngen && !EarlyStage(w.failAt(gen))
    requires w.failAt(gen) == Some(Statistics) || EvalsAt(tb, p.mu, raw0, gen) == 0
    ensures GenFailure(tb, p, w, raw0, gen) == Some(Statistics)
    ensures Generation(tb, p, w, ReachedState(tb, p, w, raw0, hof0, gen), gen).Interrupted?
    ensures LeftForInterruption(tb, p, w, raw0, hof0, Generation(tb, p, w, ReachedState(tb, p, w, raw0, hof0, gen), gen).state, gen, Some(Statistics))
  {
    var s := ReachedState(tb, p, w, raw0, hof0, gen);
    assert EvalsAt(tb, p.mu, raw0, gen) == CountInvalid(tb.vary(s.population, gen));
    GenerationStatistics(tb, p, w, s, gen);
    GenerationEffect(tb, p, w, s, gen);
    EvaluateInvalidIsEach(tb.vary(s.population, gen), tb.evaluate);
  }

  lemma InterruptedInReport<G>(tb: Toolbox<G>, p: Params<G>, w: World, raw0: seq<Individual<G>>, hof0: Option<seq<Individual<G>>>, gen: nat)
    requires 1 <= gen <= p.ngen && !EarlyStage(w.failAt(gen))
    requires w.failAt(gen) != Some(Statistics) && EvalsAt(tb, p.mu, raw0, gen) > 0
    requires w.failAt(gen) == Some(Report) && p.verbose
    ensures GenFailure(tb, p, w, raw0, gen) == Some(Report)
    ensures Generation(tb, p, w, ReachedState(tb, p, w, raw0, hof0, gen), gen).Interrupted?
    ensures LeftForInterruption(tb, p, w, raw0, hof0, Generation(tb, p, w, ReachedState(tb, p, w, raw0, hof0, gen), gen).state, gen, Some(Report))
  {
    var s := ReachedState(tb, p, w, raw0, hof0, gen);
    assert EvalsAt(tb, p.mu, raw0, gen) == CountInvalid(tb.vary(s.population, gen));
    GenerationReport(tb, p, w, s, gen);
    CommittedLog(tb, p, raw0, s, gen);
    CommitCheckpoints(tb, p, w, raw0, hof0, s, gen);
  }

  /** A generation whose reference failure is present is interrupted and leaves the
      state the interruption branch expects. */
  lemma GenerationInterrupts<G>(tb: Toolbox<G>, p: Params<G>, w: World, raw0: seq<Individual<G>>, hof0: Option<seq<Individual<G>>>, gen: nat)
    requires 1 <= gen <= p.ngen && GenFailure(tb, p, w, raw0, gen).Some?
    ensures Generation(tb, p, w, ReachedState(tb, p, w, raw0, hof0, gen), gen).Interrupted?
    ensures LeftForInterruption(tb, p, w, raw0, hof0, Generation(tb, p, w, ReachedState(tb, p, w, raw0, hof0, gen), gen).state, gen, GenFailure(tb, p, w, raw0, gen))
  {
    var fail := w.failAt(gen);
    if EarlyStage(fail) {
      InterruptedEarly(tb, p, w, raw0, hof0, gen);
    } else if fail == Some(Statistics) || EvalsAt(tb, p.mu, raw0, gen) == 0 {
      InterruptedInStatistics(tb, p, w, raw0, hof0, gen);
    } else {
      InterruptedInReport(tb, p, w, raw0, hof0, gen);
    }
  }

  /** The `except` branch, entered with the state a failing generation leaves,
      produces the reference run for that generation. */
  lemma InterruptMatches<G>(tb: Toolbox<G>, p: Params<G>, w: World, raw0: seq<Individual<G>>, hof0: Option<seq<Individual<G>>>, cur: State<G>, gen: nat)
    requires 1 <= gen <= p.ngen && GenFailure(tb, p, w, raw0, gen).Some?
    requires LeftForInterruption(tb, p, w, raw0, hof0, cur, gen, GenFailure(tb, p, w, raw0, gen))
    ensures Interrupt(w, cur, gen) == ExpectedRun(tb, p, w, raw0, hof0, Some(gen))
  {
  }

  /** When no generation from `gen` on fails, the loop runs from the reached state
      of `gen` to the reached state past the last generation. */
  lemma {:induction false} LoopRunsOut<G>(tb: Toolbox<G>, p: Params<G>, w: World, raw0: seq<Individual<G>>, hof0: Option<seq<Individual<G>>>, gen: nat)
    requires 1 <= gen <= p.ngen + 1
    requires FirstFailure(tb, p, w, raw0, gen).None?
    ensures Loop(tb, p, w, ReachedState(tb, p, w, raw0, hof0, gen), gen) == Loop(tb, p, w, ReachedState(tb, p, w, raw0, hof0, p.ngen + 1), p.ngen + 1)
    decreases p.ngen + 1 - gen, 1
  {
    if gen <= p.ngen {
      LoopSkipsOut(tb, p, w, raw0, hof0, gen);
    }
  }

  /** The step of `LoopRunsOut` past a generation that does not fail. */
  lemma {:induction false} LoopSkipsOut<G>(tb: Toolbox<G>, p: Params<G>, w: World, raw0: seq<Individual<G>>, hof0: Option<seq<Individual<G>>>, gen: nat)
    requires 1 <= gen <= p.ngen
    requires FirstFailure(tb, p, w, raw0, gen).None?
    ensures Loop(tb, p, w, ReachedState(tb, p, w, raw0, hof0, gen), gen) == Loop(tb, p, w, ReachedState(tb, p, w, raw0, hof0, p.ngen + 1), p.ngen + 1)
    decreases p.ngen + 1 - gen, 0
  {
    LoopStep(tb, p, w, raw0, hof0, gen);
    LoopRunsOut(tb, p, w, raw0, hof0, gen + 1);
  }

  /** When generation f is the first to fail from `gen` on, the loop runs from the
      reached state of `gen` into the interruption of generation f. */
  lemma {:induction false} LoopRunsInto<G>(tb: Toolbox<G>, p: Params<G>, w: World, raw0: seq<Individual<G>>, hof0: Option<seq<Individual<G>>>, gen: nat, f: nat)
    requires 1 <= gen <= f <= p.ngen
    requires FirstFailure(tb, p, w, raw0, gen) == Some(f)
    ensures Loop(tb, p, w, ReachedState(tb, p, w, raw0, hof0, gen), gen) == ExpectedRun(tb, p, w, raw0, hof0, Some(f))
    decreases f - gen, 1
  {
    if gen < f {
      LoopSkipsInto(tb, p, w, raw0, hof0, gen, f);
    } else {
      FirstFailureFails(tb, p, w, raw0, gen);
      LoopInterrupted(tb, p, w, raw0, hof0, gen);
    }
  }

  /** The step of `LoopRunsInto` past a generation before the failing one. */
  lemma {:induction false} LoopSkipsInto<G>(tb: Toolbox<G>, p: Params<G>, w: World, raw0: seq<Individual<G>>, hof0: Option<seq<Individual<G>>>, gen: nat, f: nat)
    requires 1 <= gen < f <= p.ngen
    requires FirstFailure(tb, p, w, raw0, gen) == Some(f)
    ensures Loop(tb, p, w, ReachedState(tb, p, w, raw0, hof0, gen), gen) == ExpectedRun(tb, p, w, raw0, hof0, Some(f))
    decreases f - gen, 0
  {
    LoopStep(tb, p, w, raw0, hof0, gen);
    LoopRunsInto(tb, p, w, raw0, hof0, gen + 1, f);
  }

  /** A successful generation hands the reached state of the next one to the next
      turn of the loop. */
  lemma LoopStep<G>(tb: Toolbox<G>, p: Params<G>, w: World, raw0: seq<Individual<G>>, hof0: Option<seq<Individual<G>>>, gen: nat)
    requires 1 <= gen <= p.ngen && GenFailure(tb, p, w, raw0, gen).None?
    ensures Loop(tb, p, w, ReachedState(tb, p, w, raw0, hof0, gen), gen) == Loop(tb, p, w, ReachedState(tb, p, w, raw0, hof0, gen + 1), gen + 1)
  {
    GenerationAdvances(tb, p, w, raw0, hof0, gen);
  }

  /** A failing generation ends the loop with the reference run for that
      generation. */
  lemma LoopInterrupted<G>(tb: Toolbox<G>, p: Params<G>, w: World, raw0: seq<Individual<G>>, hof0: Option<seq<Individual<G>>>, gen: nat)
    requires 1 <= gen <= p.ngen && GenFailure(tb, p, w, raw0, gen).Some?
    ensures Loop(tb, p, w, ReachedState(tb, p, w, raw0, hof0, gen), gen) == ExpectedRun(tb, p, w, raw0, hof0, Some(gen))
  {
    GenerationInterrupts(tb, p, w, raw0, hof0, gen);
    InterruptMatches(tb, p, w, raw0, hof0, Generation(tb, p, w, ReachedState(tb, p, w, raw0, hof0, gen), gen).state, gen);
  }

  /** A loop that gets past the last generation returns the final population and
      the full log. */
  lemma LoopFinished<G>(tb: Toolbox<G>, p: Params<G>, w: World, raw0: seq<Individual<G>>, hof0: Option<seq<Individual<G>>>)
    ensures Loop(tb, p, w, ReachedState(tb, p, w, raw0, hof0, p.ngen + 1), p.ngen + 1) == ExpectedRun(tb, p, w, raw0, hof0, None)
  {
  }

  /** From the reached state of generation 1 the loop produces the reference run
      for the first failing generation. */
  lemma LoopMatches<G>(tb: Toolbox<G>, p: Params<G>, w: World, raw0: seq<Individual<G>>, hof0: Option<seq<Individual<G>>>)
    requires GenFailure(tb, p, w, raw0, 0).None?
    ensures Loop(tb, p, w, ReachedState(tb, p, w, raw0, hof0, 1), 1) == ExpectedRun(tb, p, w, raw0, hof0, FirstFailure(tb, p, w, raw0, 0))
  {
    FirstFailureSkips(tb, p, w, raw0, 0);
    FirstFailureBounds(tb, p, w, raw0, 1);
    var f := FirstFailure(tb, p, w, raw0, 1);
    if f.None? {
      LoopRunsOut(tb, p, w, raw0, hof0, 1);
      LoopFinished(tb, p, w, raw0, hof0);
    } else {
      LoopRunsInto(tb, p, w, raw0, hof0, 1, f.value);
    }
  }

  /** Before the loop: a failure in generation 0 escapes, and otherwise the loop
      starts from the reached state of generation 1. */
  lemma RunStarts<G>(tb: Toolbox<G>, p: Params<G>, w: World, raw0: seq<Individual<G>>, hof0: Option<seq<Individual<G>>>)
    ensures GenFailure(tb, p, w, raw0, 0).Some? ==>
      EaMuPlusLambda(tb, p, w, raw0, hof0) ==
      Run(Raised, Some(0), [], [], HallOfFameLeft(tb, p.mu, EvaluateEach(raw0, tb.evaluate), hof0, 0, GenFailure(tb, p, w, raw0, 0)))
    ensures GenFailure(tb, p, w, raw0, 0).None? ==>
      EaMuPlusLambda(tb, p, w, raw0, hof0) == Loop(tb, p, w, ReachedState(tb, p, w, raw0, hof0, 1), 1)
  {
    var pop0 := EvaluateEach(raw0, tb.evaluate);
    EvaluateInvalidIsEach(raw0, tb.evaluate);
    if GenFailure(tb, p, w, raw0, 0).None? {
      var log := [Record(0, 100.0 / (p.ngen + 1) as real, CountInvalid(raw0), Compile(p.stats, pop0))];
      assert log == ExpectedLog(tb, p, raw0, 1);
      assert State(pop0, pop0, log, CountInvalid(raw0), UpdateHallOfFame(tb, hof0, pop0), []) == ReachedState(tb, p, w, raw0, hof0, 1);
    }
  }

  /** The whole run is the reference run for the first failing generation. */
  lemma RunMatches<G>(tb: Toolbox<G>, p: Params<G>, w: World, raw0: seq<Individual<G>>, hof0: Option<seq<Individual<G>>>)
    ensures EaMuPlusLambda(tb, p, w, raw0, hof0) == ExpectedRun(tb, p, w, raw0, hof0, FirstFailure(tb, p, w, raw0, 0))
  {
    RunStarts(tb, p, w, raw0, hof0);
    if GenFailure(tb, p, w, raw0, 0).None? {
      LoopMatches(tb, p, w, raw0, hof0);
    }
  }
}

=== FILE: strings.dfy ===
/** The few string operations the driver and the results writer rely on:
    `str.lower` for the interruption prompt, `'{}'.format(n)` for checkpoint
    sub-directory names, and `os.path.join` / `os.path.basename` on POSIX paths. */
module Strings {

  /** ASCII case mapping. Python's `str.lower` also maps non-ASCII letters, but
      none of those maps to 'y', 'e' or 's', so the prompt test below is exact. */
  function LowerChar(c: char): char {
    if 'A' <= c <= 'Z' then (c as int + 32) as char else c
  }

  function Lower(s: string): (r: string)
    ensures |r| == |s|
    ensures forall i :: 0 <= i < |s| ==> r[i] == LowerChar(s[i])
  {
    if s == [] then [] else [LowerChar(s[0])] + Lower(s[1..])
  }

  /** The prompt's answer counts as a "yes" when, lower-cased, it is "y" or "yes". */
  predicate Affirmative(answer: string): (yes: bool)
    ensures yes ==> (|answer| == 1 || |answer| == 3) && answer[0] in "yY"
  {
    Lower(answer) == "y" || Lower(answer) == "yes"
  }

  /** Independent statement of the same test: the answer is "y" or "yes" in any mix
      of letter case, and nothing else (no surrounding blanks, no "yeah"). */
  lemma AffirmativeIff(answer: string)
    ensures Affirmative(answer) <==>
      (|answer| == 1 && answer[0] in "yY") ||
      (|answer| == 3 && answer[0] in "yY" && answer[1] in "eE" && answer[2] in "sS")
  {
    var l := Lower(answer);
    if |answer| == 1 {
      assert l == "y" <==> LowerChar(answer[0]) == 'y';
    } else if |answer| == 3 {
      assert l == "yes" <==>
        LowerChar(answer[0]) == 'y' && LowerChar(answer[1]) == 'e' && LowerChar(answer[2]) == 's';
    }
  }

  predicate IsDigit(c: char) {
    '0' <= c <= '9'
  }

  function DigitChar(d: nat): (c: char)
    requires d < 10
    ensures IsDigit(c)
  {
    ('0' as int + d) as char
  }

  /** Decimal rendering of a natural number, as `'{}'.format(n)` prints it. */
  function NatToString(n: nat): (s: string)
    ensures |s| >= 1
    ensures forall i :: 0 <= i < |s| ==> IsDigit(s[i])
    ensures s[0] == '0' ==> n == 0 && |s| == 1
    decreases n
  {
    if n < 10 then [DigitChar(n)] else NatToString(n / 10) + [DigitChar(n % 10)]
  }

  /** The number a string of decimal digits denotes. */
  function DigitsValue(s: string): nat
    requires forall i :: 0 <= i < |s| ==> IsDigit(s[i])
  {
    if s == [] then 0
    else
      assert IsDigit(s[|s| - 1]);
      DigitsValue(s[..|s| - 1]) * 10 + (s[|s| - 1] as int - '0' as int)
  }

  lemma {:induction false} NatToStringRoundTrip(n: nat)
    ensures DigitsValue(NatToString(n)) == n
    decreases n
  {
    var s := NatToString(n);
    if n >= 10 {
      NatToStringRoundTrip(n / 10);
      assert s[..|s| - 1] == NatToString(n / 10);
    }
  }

  /** Distinct generations get distinct checkpoint names. */
  lemma NatToStringInjective(m: nat, n: nat)
    ensures NatToString(m) == NatToString(n) ==> m == n
  {
    NatToStringRoundTrip(m);
    NatToStringRoundTrip(n);
  }

  /** `os.path.join(a, b)` with two arguments on POSIX: an absolute `b` replaces `a`;
      otherwise a separator is inserted unless `a` is empty or already ends in one. */
  function Join(a: string, b: string): (r: string)
    ensures |b| > 0 && b[0] == '/' ==> r == b
    ensures !(|b| > 0 && b[0] == '/') ==> |r| >= |a| + |b| && r[..|a|] == a && r[|r| - |b|..] == b
    ensures !(|b| > 0 && b[0] == '/') && a != "" && a[|a| - 1] != '/' ==> |r| == |a| + 1 + |b| && r[|a|] == '/'
    ensures !(|b| > 0 && b[0] == '/') && (a == "" || a[|a| - 1] == '/') ==> |r| == |a| + |b|
  {
    if |b| > 0 && b[0] == '/' then b
    else if a == "" || a[|a| - 1] == '/' then a + b
    else a + "/" + b
  }

  /** `os.path.basename(p)` on POSIX: whatever follows the last '/'. */
  function Basename(p: string): (r: string)
    ensures '/' !in r
    ensures |r| <= |p| && r == p[|p| - |r|..]
    ensures |r| < |p| ==> p[|p| - |r| - 1] == '/'
  {
    if p == [] || p[|p| - 1] == '/' then []
    else Basename(p[..|p| - 1]) + [p[|p| - 1]]
  }

  lemma {:induction false} BasenameOfSlashFree(pre: string, name: string)
    requires '/' !in name
    requires pre == [] || pre[|pre| - 1] == '/'
    ensures Basename(pre + name) == name
    decreases |name|
  {
    if name != [] {
      var p := pre + name;
      assert p[..|p| - 1] == pre + name[..|name| - 1];
      BasenameOfSlashFree(pre, name[..|name| - 1]);
    } else {
      assert pre + name == pre;
    }
  }

  /** Joining a directory with a relative, slash-free name and taking the basename
      gives the name back: the results map is keyed by the file's own name. */
  lemma BasenameOfJoin(dir: string, name: string)
    requires '/' !in name && name != []
    ensures Basename(Join(dir, name)) == name
  {
    if dir == "" || dir[|dir| - 1] == '/' {
      BasenameOfSlashFree(dir, name);
    } else {
      assert dir + "/" + name == (dir + "/") + name;
      BasenameOfSlashFree(dir + "/", name);
    }
  }
}

=== FILE: wrappers.dfy ===
/** The optional value used throughout the model. An individual whose fitness is
    invalid has no fitness values yet; the driver's optional arguments (the hall
    of fame, the statistics object, the checkpoint sub-directory) are absent when
    the caller passes Python's `None`. */
module Wrappers {

  datatype Option<+T> = None | Some(value: T) {

    /** The value held, falling back to `fallback` when nothing is held. */
    function GetOr(fallback: T): T {
      if Some? then value else fallback
    }
  }
}
